=== FILE: README.md ===
# umnazaretha-online: access guard, review workflow and scheduling in Dafny

umnazaretha-online is a church video-streaming site built on Next.js and a hosted
Postgres/auth service. It has no server of its own. Every business rule lives in a page
or component that calls the store directly, or in the request middleware. This project
models those rules as pure Dafny functions and methods over an explicit store, and
proves what they guarantee and what they do not.

The store is a record of four tables and the audit log:

- `programs`, `approvals`, `schedules` and `users` are maps from row id to row (`Rows.Store`).
- `audit_logs` is an append-only sequence.

Every call a handler makes to the store has a named failure point. These are a `Faults`
map keyed by call site, or a boolean `readFails` / `writeFails` argument. The model
follows these store behaviours:

- `.single()` on a missing row is an error.
- An update filtered by an id that no row has is a silent no-op.
- An insert whose id is taken fails.
- A schedule insert naming an unknown program fails its foreign key.

Ids the store would generate and the current time are parameters.

Modules:

- `RouteGuard` and `RouteGuardProperties` cover `src/middleware.ts`. They model the path matcher, the session rule, the auth-form rule, the subscription rule and the admin rule. The properties compare the decision against an independent statement of the policy (`Permitted`) and prove that redirects never loop.
- `AdminShell` covers the `checkUser` gate and sign-out of `src/app/admin/layout.tsx`, and where this gate and the middleware disagree.
- `ApprovalWorkflow` and `ApprovalProperties` cover `src/app/admin/approval/page.tsx`. This is the two-stage review: executive_producer, then church_leadership. The model includes every partial failure of its non-atomic step sequence.
- `Upload` covers `handleUpload` of `src/app/admin/upload/page.tsx`.
- `ContentAdmin` covers the listing, the direct approve/reject override, the offered buttons and the status badge of `src/app/admin/content/page.tsx`.
- `Scheduling` and `SchedulingProperties` cover the conflict check, the write gate and the approved-only program list of `src/app/admin/schedule/page.tsx`.
- `ProgramGuide` and `ProgramGuideProperties` cover `src/components/program-guide.tsx` and `ComingUpNext` covers `src/components/coming-up-next.tsx`.
- `UserAdmin` and `UserAdminProperties` cover the listing and the promote/demote actions of `src/app/admin/users/page.tsx`.
- `Audit` covers `logAdminAction` in `src/lib/audit.ts`.
- `Search` and `SearchProperties` cover `handleSearch` in `src/app/page.tsx`.
- `UserStore` covers the client state of `src/store/user-store.ts`.
- `ReviewChain` chains upload, approve and reject to show the end-to-end outcome of a review.

Behaviour of the code that a reader might not expect, and that the model keeps:

- The conflict query has no `order` clause, so the conflict list carries no order.
- Approval decisions are not terminal. The handlers never re-read the status, so a rejected row can still be approved (`ApproveIgnoresStatus`).
- The guide's genre line guards only the joined program with `?.`, so a listed program with a null genre makes the render throw (`NullGenreBreaksGuide`); the coming-up-next card guards the genre as well.
- A zero-length slot can conflict. The query's strict predicate reports a zero-length slot strictly inside an existing row (`ZeroLengthInsideConflicts`).
- The write does not re-check conflicts. It trusts the last stored list, however old (`StaleListAdmitsOverlap`, `ChangedFormAdmitsOverlap`).
- The schedule insert sets no `created_by`, so the new row records no creator.
- The search threshold counts UTF-16 code units, as JavaScript's `length` does, so a character outside the Basic Multilingual Plane counts twice (`SurrogatePairCountsTwice`).

## Model

| member | source | states |
|---|---|---|
| RouteGuard.Decide | src/middleware.ts:57-84 | never redirects a page to itself; only `/sign-in`, `/` and `/subscribe` are targets; without a session the result is Pass or sign-in; with a session it is never sign-in; a missing user row never triggers the subscription or role rules |
| RouteGuard.Middleware | src/middleware.ts:57-97 | a path the matcher excludes always passes; an evaluated path without a session passes exactly when it is under an unprotected prefix; with a session whose row cannot be read it passes exactly when it is not an auth form |
| RouteGuardProperties.PassIffPermitted | src/middleware.ts:59-81 | a request passes exactly when the access policy permits it: an unprotected prefix without a session, not an auth form with one, an active subscription (or the subscribe page) and the admin role on admin pages when the row exists |
| RouteGuardProperties.NoSessionRule | src/middleware.ts:59-64 | without a session, every path outside the three unprotected prefixes goes to sign-in and every path under them passes |
| RouteGuardProperties.SubscribeSubpathIsUnprotected | src/middleware.ts:62 | the unprotected match is by prefix, so a page below `/subscribe` passes without a session |
| RouteGuardProperties.SignedInAuthFormGoesHome | src/middleware.ts:67-69 | a signed-in request for sign-in or sign-up goes home |
| RouteGuardProperties.InactiveGoesToSubscribe | src/middleware.ts:74-76 | a row whose subscription is not exactly `active`, null included, sends every other page to `/subscribe` |
| RouteGuardProperties.SubscriptionCheckedBeforeRole | src/middleware.ts:74-80 | an inactive non-admin on an admin page goes to `/subscribe`, not home: the subscription rule is checked first |
| RouteGuardProperties.NonAdminLeavesAdmin | src/middleware.ts:78-80 | an active row without the admin role is sent home from every `/admin` path |
| RouteGuardProperties.MissingRowPasses | src/middleware.ts:71-81 | a session whose user row is missing or unreadable passes every non-auth path |
| RouteGuardProperties.TargetsEvaluated | src/middleware.ts:95 | the three redirect targets are not excluded by the matcher |
| RouteGuardProperties.RedirectsSettle | src/middleware.ts:57-84 | following the guard's redirects with the same session and row reaches a page that passes after at most two redirects |
| RouteGuardProperties.ExcludedPathsSkipGuard | src/middleware.ts:95 | static files, image optimisation, the favicon (the `.` is a regex wildcard), locales and the service worker pass without a session |
| RouteGuardProperties.GuardExamples | src/middleware.ts:59-80 | worked cases: `/` without a session goes to sign-in, `/subscribe` passes, an inactive user goes to `/subscribe`, an admin reaches `/admin/users`, an active subscriber is sent home from it |
| AdminShell.CheckUser | src/app/admin/layout.tsx:20-47 | no session goes to sign-in; a read error, a missing row or a role other than `admin` goes home with the state unchanged; the shell stays only for an admin row, and then stores that row's five columns as the user and marks the state authenticated |
| AdminShell.SignOut | src/app/admin/layout.tsx:53-58 | clears the user, marks the state unauthenticated and navigates to sign-in, leaving the other fields unchanged |
| AdminShell.ChildrenOnlyForAdmins | src/app/admin/layout.tsx:20-62 | from a fresh state the admin pages render exactly when the session's row is readable and has role `admin` |
| AdminShell.SignOutHidesChildren | src/app/admin/layout.tsx:53-62 | after sign-out nothing is rendered |
| AdminShell.ShellAndGuardDisagree | src/app/admin/layout.tsx:29-38 | a session with no user row passes the middleware on `/admin` but the shell sends it home; an admin row with null subscription is admitted by the shell but sent to `/subscribe` by the middleware |
| Audit.LogAdminAction | src/lib/audit.ts:4-27 | never changes a table; a failing insert changes nothing and is not an error; otherwise exactly one row is appended with the given action, resource type and user, an absent or empty resource id stored as null, absent or falsy details stored as null |
| StoreOps.SetProgramStatus | src/app/admin/content/page.tsx:78-81 | sets approval_status of the row with that id only; a missing id changes nothing; other tables and the key set are unchanged |
| StoreOps.SetUserRole | src/app/admin/users/page.tsx:76-79 | sets role of the user with that id only; a missing id changes nothing; other tables and the key set are unchanged |
| ApprovalWorkflow.Abort | src/app/admin/approval/page.tsx:184-199 | a thrown step leaves the tables as they were at that point and appends the `*_ERROR` audit row unless that insert fails too |
| ApprovalWorkflow.Approve | src/app/admin/approval/page.tsx:76-207 | no user means no change; schedules and users untouched; the log only grows; approval ids only grow and program ids never change; every abort, with the error log working, ends with an `APPROVE_CONTENT_ERROR` row; a throw at the read or the promotion insert leaves approvals and programs as they were; a throw at the row update keeps every old row and programs, and adds at most the promotion row; a throw at the program update leaves the row decided and programs as they were |
| ApprovalWorkflow.Reject | src/app/admin/approval/page.tsx:209-323 | no user means no change; no approval row is ever added; the log only grows; every abort, with the error log working, ends with a `REJECT_CONTENT_ERROR` row; a throw at the read or the row update leaves approvals and programs as they were; a throw at the program update leaves only the row rejected and programs as they were |
| ApprovalWorkflow.FetchPendingApprovals | src/app/admin/approval/page.tsx:36-70 | lists exactly the pending approval rows, each once, newest first; a read error keeps the previous list |
| ApprovalProperties.ApproveExecutiveProducer | src/app/admin/approval/page.tsx:108-136 | approving an executive_producer row adds exactly one row, a pending church_leadership request for the same content and content type with no approver and no comments, changes the acted-on row only in its status, approver and comments, and touches no program |
| ApprovalProperties.ApproveChurchLeadership | src/app/admin/approval/page.tsx:124-175 | approving a church_leadership row adds no row, marks it approved and sets its program, and no other, to approved; only that program's status column changes |
| ApprovalProperties.ApproveOtherLevel | src/app/admin/approval/page.tsx:108-175 | approving a row of any other level, or of none, changes only that row |
| ApprovalProperties.RejectAtAnyLevel | src/app/admin/approval/page.tsx:241-291 | rejecting at any level marks the row rejected by the actor, sets its program to rejected, changing no other column of it, and inserts no approval row |
| ApprovalProperties.PromotionSurvivesFailedUpdate | src/app/admin/approval/page.tsx:108-136 | when the row update fails after the promotion insert, the new pending row stays beside the untouched original and an error row is logged |
| ApprovalProperties.ProgramUpdateFailureLeavesRowApproved | src/app/admin/approval/page.tsx:124-162 | when the program update fails, the church_leadership row is already approved while the program keeps its old status |
| ApprovalProperties.ProgramUpdateFailureLeavesRowRejected | src/app/admin/approval/page.tsx:241-291 | when the program update fails, the row is already rejected by the actor while the program keeps its old status |
| ApprovalProperties.ApproveIgnoresStatus | src/app/admin/approval/page.tsx:86-136 | the handler does not re-check the status: a rejected executive_producer row is approved again and promoted |
| ApprovalProperties.RetryDuplicatesPendingPromotion | src/app/admin/approval/page.tsx:108-136 | retrying an approve whose row update failed leaves two pending church_leadership rows for the same content |
| Upload.HandleUpload | src/app/admin/upload/page.tsx:36-157 | an incomplete form or no user writes nothing; a storage failure or a failed program insert writes nothing and keeps the form; success happens exactly when the form is complete, a user is signed in, the file is stored and the insert succeeds; it then adds one pending program with the form's fields, at most one executive_producer request, and resets the form |
| Upload.PendingProgramWithoutApproval | src/app/admin/upload/page.tsx:118-130 | a failed approval insert is only warned about: the upload still succeeds and leaves a pending program that no approval row refers to |
| ContentAdmin.FetchPrograms | src/app/admin/content/page.tsx:37-74 | lists exactly the programs whose title contains the term ignoring case (when given), whose genre and status match unless `all`, each once, newest first; a read error keeps the previous list |
| ContentAdmin.Override | src/app/admin/content/page.tsx:76-138 | sets one program's status in the store and in the local list, every other column of that program kept, or changes neither on an error; nothing else changes |
| ContentAdmin.ApproveProgram | src/app/admin/content/page.tsx:76-106 | the program and its local copy become approved on success with every other column kept, nothing changes on an error, and no approval row is read or written |
| ContentAdmin.RejectProgram | src/app/admin/content/page.tsx:108-138 | the program and its local copy become rejected on success with every other column kept, nothing changes on an error, and no approval row is read or written |
| ContentAdmin.OfferedButtons | src/app/admin/content/page.tsx:264-283 | both buttons show for pending, null or any other status; only Reject once approved; only Approve once rejected; never neither |
| ContentAdmin.OverrideBypassesChain | src/app/admin/content/page.tsx:76-92 | approving here needs no approval row and writes none, and the row then offers only Reject |
| ContentAdmin.StatusBadge | src/app/admin/content/page.tsx:140-151 | approved, rejected and pending get their own variants; anything else gets an outline badge captioned with its text, or `Unknown` when null or empty |
| Scheduling.TitleOf | src/app/admin/schedule/page.tsx:96 | a conflicting row always gets a non-empty title: its program's title when the program exists with a non-empty title, and `Unknown Program` in every other case |
| Scheduling.CheckConflicts | src/app/admin/schedule/page.tsx:65-110 | with no day or program, or on a query error, the list stays; otherwise it holds one summary per row of the same channel that overlaps the new interval, and no other |
| Scheduling.HandleSchedule | src/app/admin/schedule/page.tsx:112-177 | an incomplete form or a non-empty stored list writes nothing; the insert succeeds exactly when the list is empty, the program exists and the id is free; it then adds one row for the form's program and channel, starting the chosen minutes after the chosen day's midnight and ending duration minutes later, with no creator, resets the form and clears the list; any failure changes nothing |
| Scheduling.FetchSchedulablePrograms | src/app/admin/schedule/page.tsx:47-63 | lists exactly the approved programs, each once; a read error keeps the previous list |
| SchedulingProperties.ConflictIsOverlap | src/app/admin/schedule/page.tsx:86-88 | the query's predicate is symmetric half-open overlap on one channel; back-to-back rows and other channels never conflict |
| SchedulingProperties.ZeroLengthInsideConflicts | src/app/admin/schedule/page.tsx:86-87 | a zero-length slot strictly inside an existing row is reported as a conflict |
| SchedulingProperties.FreshCheckPreservesNoOverlaps | src/app/admin/schedule/page.tsx:122-149 | when the stored list covers every conflict of this store and form, a write keeps the channels free of overlaps |
| SchedulingProperties.StaleListAdmitsOverlap | src/app/admin/schedule/page.tsx:122-149 | with no check run, a write on top of an existing row goes through |
| SchedulingProperties.ChangedFormAdmitsOverlap | src/app/admin/schedule/page.tsx:65-149 | a check run before the start time was changed lets an overlapping write through on the same channel |
| SchedulingProperties.OverlapScenario | src/app/admin/schedule/page.tsx:86-88 | against 10:00-11:00 on main, 10:30-11:30 on main conflicts; 11:00-12:00 on main and 10:30-11:30 on secondary do not |
| ProgramGuide.GuideListing | src/components/program-guide.tsx:51-76 | at most ten distinct rows, each ending strictly after now, earliest start first; an unfinished row is left out only when ten rows starting no later are shown; a read error keeps the previous list |
| ProgramGuide.ColorClass | src/components/program-guide.tsx:21-28 | always one of the table's classes; a known genre gets its own; a missing, empty or unknown genre gets the default |
| ProgramGuide.GenreLabel | src/components/program-guide.tsx:96 | the label has the name's length; the first `_` becomes a space and every other character, later underscores included, is kept |
| ProgramGuide.GenreLabelExample | src/components/program-guide.tsx:121 | only the first underscore becomes a space: `a_b_c` is shown as `a b_c` |
| ComingUpNext.NextProgram | src/components/coming-up-next.tsx:20-55 | picks a row starting strictly after now with no other upcoming row starting earlier, on any channel; nothing is shown exactly when the read fails or no row starts after now |
| UserAdmin.FetchUsers | src/app/admin/users/page.tsx:35-72 | lists exactly the stored users whose email contains the term ignoring case (when given), whose role and status match unless `all`, each once, newest first; a read error keeps the previous list |
| UserAdmin.ChangeRole | src/app/admin/users/page.tsx:74-122 | on success that user's row and its listed copies differ from the old ones in the role alone, and every other user and listed row is unchanged; on an error neither changes |
| UserAdmin.Promote | src/app/admin/users/page.tsx:74-104 | on success the user's row and its listed copies change only in the role, which becomes `admin`; other users and rows are unchanged; on an error nothing changes |
| UserAdmin.Demote | src/app/admin/users/page.tsx:106-136 | on success the user's row and its listed copies change only in the role, which becomes `subscriber`; other users and rows are unchanged; on an error nothing changes |
| UserAdminProperties.AtMostOneButton | src/app/admin/users/page.tsx:253-272 | a row never offers both buttons, and offers one exactly when its role is `subscriber` or `admin` |
| UserAdminProperties.ChangeRoleKeepsMirror | src/app/admin/users/page.tsx:81-90 | a role change, successful or not, keeps every listed row equal to the stored row with its id |
| UserAdminProperties.PromoteThenDemoteRestores | src/app/admin/users/page.tsx:78-122 | promoting a subscriber and then demoting them, both succeeding, restores the store and the listing |
| Search.HandleSearch | src/app/page.tsx:27-45 | the term always becomes the input; two UTF-16 code units or fewer clear the results; a longer term yields exactly the matching programs, or keeps the old results on an error |
| SearchProperties.TypingNarrowsResults | src/app/page.tsx:31-40 | typing one more character into a searchable term never adds a result |
| SearchProperties.FindsUnapprovedPrograms | src/app/page.tsx:32-35 | a pending program whose title matches is found: the search has no approval filter |
| UserStore.Initial | src/store/user-store.ts:17-31 | no user, language `en`, not authenticated, status `inactive`, and exactly the four notification toggles, all on |
| UserStore.SetUser | src/store/user-store.ts:19 | replaces the user and nothing else |
| UserStore.SetLanguage | src/store/user-store.ts:21 | replaces the language and nothing else |
| UserStore.SetIsAuthenticated | src/store/user-store.ts:23 | replaces the authenticated flag and nothing else |
| UserStore.SetSubscriptionStatus | src/store/user-store.ts:25 | replaces the subscription status and nothing else |
| UserStore.SetNotificationSettings | src/store/user-store.ts:32-34 | keys given take the new values, the other keys keep theirs, the key set is the union, and the other fields are untouched |
| UserStore.SetNotificationSettingsIdempotent | src/store/user-store.ts:32-34 | applying the same settings twice equals applying them once |
| UserStore.TogglesNeverLost | src/store/user-store.ts:26-34 | after any sequence of merges the four toggles are still present |
| ReviewChain.UploadFilesFirstRequest | src/app/admin/upload/page.tsx:80-130 | a clean upload leaves a pending program and one pending executive_producer request for it |
| ReviewChain.TwoApprovalsApproveProgram | src/app/admin/approval/page.tsx:108-175 | upload, executive_producer approval and church_leadership approval, with table calls succeeding, leave the program approved and both requests approved |
| ReviewChain.FirstStageRejectionRejectsProgram | src/app/admin/approval/page.tsx:241-278 | rejecting the first request leaves the program rejected and files no second request |
| ReviewChain.SecondStageRejectionRejectsProgram | src/app/admin/approval/page.tsx:241-278 | rejecting the church_leadership request after the first approval leaves the program rejected while the first request stays approved |
| IntervalConventions.LiveButNotListed | src/components/program-guide.tsx:57-82 | a row counts as live yet is dropped from the guide exactly when it ends at the current instant, because the badge uses a closed interval and the query a strict `end_time > now` |
| IntervalConventions.EndInstantFreeForConflicts | src/app/admin/schedule/page.tsx:86-87 | a row ending at the current instant is still shown live, yet a new slot starting at that instant does not conflict with it |
| SearchProperties.SurrogatePairCountsTwice | src/app/page.tsx:31 | a two-character term whose first character lies outside the Basic Multilingual Plane is three code units long and is searched |
| SearchProperties.TermCaseIrrelevant | src/app/page.tsx:35 | a term matches a title exactly when its lowered form does |
| ApprovalWorkflow.PromotionRow | src/app/admin/approval/page.tsx:110-117 | the inserted request carries the acted-on row's content id and type, level church_leadership and status pending; approver and comments stay null |
| ProgramGuide.RowGenreLine | src/components/program-guide.tsx:121 | a listed row's genre line throws exactly when its program exists with a null genre; a row without a program shows an empty line; otherwise the line is the genre's label |
| ProgramGuide.GenreLines | src/components/program-guide.tsx:106-124 | when the list renders, it has one genre line per listed row, in order, each the row's own line |
| ProgramGuideProperties.NullGenreBreaksGuide | src/components/program-guide.tsx:106-124 | the list fails to render exactly when some listed row's program has a null genre |
| ProgramGuideProperties.OneNullGenreBreaksGuide | src/components/program-guide.tsx:121 | a single listed program with a null genre is enough to make the list fail |

## Left out

- Cookie and session plumbing of the middleware and layout, and the auth provider's sign-out call. Whether a session exists, and its user id, are inputs.
- Query execution, row-level security policies and error message texts. The store model only decides whether a call succeeds, and a faulted call carries a free message.
- `ilike` wildcards: a `%` or `_` inside a user's term is matched literally here. Case is folded on ASCII letters only.
- The program guide's genre filter on an embedded relation (`programs.genre`) and `fetchGenres`. Their semantics belong to the query library. The guide is modelled with its filter set to `all`.
- JavaScript `Date` handling: local-time `setHours`, ISO strings, time zones and formatting. Instants are integer milliseconds, and a schedule's day is the instant of its midnight.
- `ProgramGuide.ColorClass`: object prototype names such as `constructor` are not modelled. In JavaScript these are truthy on the colour table.
- The unguarded `genre.replace` in the home page's search results (`src/app/page.tsx:78`) and in the schedule page's program select and preview (`src/app/admin/schedule/page.tsx:205`, `:327`): a program with a null genre makes these renders throw too. Only the program guide's crash is modelled, as `ProgramGuideProperties.NullGenreBreaksGuide`. These two are display only.
- Concurrency: the race between the conflict check and the insert, and concurrent approvers. Every call runs to completion in sequence.
- The `loading` and `processing` flags, toasts, timers, i18n, the video player, the stream-token API route and the storage stubs. They render or delegate and decide no rule.
- The users page role and status badges. They are display only, with the same shape as `ContentAdmin.StatusBadge`.
- The audit row's generated id and timestamp source: the timestamp is a parameter.
- Store-generated ids: the caller passes them in, and an id already taken makes the insert fail.

=== FILE: admin_shell.dfy ===
/** The admin shell (src/app/admin/layout.tsx): the `checkUser` gate run when
    the shell mounts, sign-out, and whether the children are rendered. */
module AdminShell {
  import opened Wrappers
  import opened Rows
  import opened UserStore
  import RouteGuard

  datatype Navigation = Stay | NavigateTo(path: string)

  /** The user store after a shell action, and where the router was sent. */
  datatype ShellResult = ShellResult(state: State, nav: Navigation)

  /** The admin row `checkUser` accepts: readable, present, role exactly `admin`. */
  predicate AdmitsRow(s: Store, userId: Id, readFails: bool) {
    !readFails && userId in s.users && s.users[userId].role == Some(AdminRole)
  }

  /** `checkUser`: without a session go to sign-in; on a read error, a missing
      row or a role other than `admin` go home; otherwise keep the five columns
      of the row as the user and mark the store authenticated. */
  function CheckUser(s: Store, session: Option<Id>, readFails: bool, st: State): (r: ShellResult)
    ensures session.None? ==> r == ShellResult(st, NavigateTo(RouteGuard.SignInPath))
    ensures session.Some? && !AdmitsRow(s, session.value, readFails) ==>
      r == ShellResult(st, NavigateTo(RouteGuard.HomePath))
    ensures r.nav == Stay <==> session.Some? && AdmitsRow(s, session.value, readFails)
    ensures r.nav == Stay ==>
      var row := s.users[session.value];
      && r.state.user == Some(SessionUser(row.id, row.email, row.role, row.subscriptionStatus, row.languagePreference))
      && r.state.isAuthenticated
      && r.state.language == st.language && r.state.subscriptionStatus == st.subscriptionStatus
      && r.state.notificationSettings == st.notificationSettings
  {
    if session.None? then
      ShellResult(st, NavigateTo(RouteGuard.SignInPath))
    else if !AdmitsRow(s, session.value, readFails) then
      ShellResult(st, NavigateTo(RouteGuard.HomePath))
    else
      var row := s.users[session.value];
      var user := SessionUser(row.id, row.email, row.role, row.subscriptionStatus, row.languagePreference);
      ShellResult(SetIsAuthenticated(SetUser(st, Some(user)), true), Stay)
  }

  /** `handleSignOut`: clears the user, marks the store unauthenticated and goes
      to sign-in; the provider's sign-out result is not inspected. */
  function SignOut(st: State): (r: ShellResult)
    ensures r.state.user.None? && !r.state.isAuthenticated
    ensures r.nav == NavigateTo(RouteGuard.SignInPath)
    ensures r.state.language == st.language && r.state.subscriptionStatus == st.subscriptionStatus
    ensures r.state.notificationSettings == st.notificationSettings
  {
    ShellResult(SetIsAuthenticated(SetUser(st, None), false), NavigateTo(RouteGuard.SignInPath))
  }

  /** The shell shows its children only once a user is set. */
  predicate RendersChildren(st: State) {
    st.user.Some?
  }

  /** From a fresh store, a denied check never renders the admin pages, and an
      admitted one always does. */
  lemma ChildrenOnlyForAdmins(s: Store, session: Option<Id>, readFails: bool)
    ensures RendersChildren(CheckUser(s, session, readFails, Initial()).state)
        <==> session.Some? && AdmitsRow(s, session.value, readFails)
  {
  }

  /** After signing out the shell renders nothing, whatever it showed before. */
  lemma SignOutHidesChildren(st: State)
    ensures !RendersChildren(SignOut(st).state)
  {
  }

  /** The shell and the guard disagree in both directions on admin pages:
      a session with no user row passes the guard but is sent home by the shell,
      while an admin row with a null subscription status is admitted by the shell
      but sent to `/subscribe` by the guard. */
  lemma ShellAndGuardDisagree(s: Store, uid: Id)
    ensures uid !in s.users ==>
      && RouteGuard.Middleware(s, Some(uid), "/admin", false) == RouteGuard.Pass
      && CheckUser(s, Some(uid), false, Initial()).nav == NavigateTo(RouteGuard.HomePath)
    ensures uid in s.users && s.users[uid].role == Some(AdminRole) && s.users[uid].subscriptionStatus == None ==>
      && RouteGuard.Middleware(s, Some(uid), "/admin", false) == RouteGuard.Redirect(RouteGuard.SubscribePath)
      && CheckUser(s, Some(uid), false, Initial()).nav == Stay
  {
    var p := "/admin";
    assert RouteGuard.Evaluated(p) by {
      forall i | 0 <= i < |RouteGuard.ExcludedPatterns|
        ensures !RouteGuard.PatternPrefix(p[1..], RouteGuard.ExcludedPatterns[i])
      {
        assert |RouteGuard.ExcludedPatterns[i]| <= |p[1..]| ==> RouteGuard.ExcludedPatterns[i][0] != p[1..][0];
      }
    }
    assert !RouteGuard.AuthForm(p);
    assert p != RouteGuard.SubscribePath by { assert p[1] != RouteGuard.SubscribePath[1]; }
  }
}

=== FILE: approval.dfy ===
/** The content-approval page (src/app/admin/approval/page.tsx): the pending
    listing and the approve and reject handlers. Each handler is a transition
    of the store with a failure point at every store call; nothing is rolled
    back when a later call fails. */
module ApprovalWorkflow {
  import opened Wrappers
  import opened Rows
  import opened Audit
  import opened StoreOps
  import Listing

  /** The store calls the handlers make, in the order they make them. */
  datatype Step =
    | ReadApproval      // select of the acted-on row (`.single()`)
    | InsertPromotion   // insert of the church_leadership row (approve only)
    | UpdateApproval    // update of the acted-on row
    | LogDecision       // APPROVE_CONTENT / REJECT_CONTENT audit insert
    | UpdateProgram     // update of the program's approval_status
    | LogContentStatus  // CONTENT_APPROVED / CONTENT_REJECTED audit insert
    | LogFailure        // APPROVE_CONTENT_ERROR / REJECT_CONTENT_ERROR audit insert

  /** The calls that fail, each with the store's error message. */
  type Faults = map<Step, string>

  const RowNotFound: string := "no approval row with this id"

  datatype Outcome = NotSignedIn | Completed | Aborted(at: Step, message: string)

  datatype Handled = Handled(store: Store, outcome: Outcome)

  /** `comments || null` */
  function StoredComments(comments: string): (c: Option<string>)
    ensures c.None? <==> comments == ""
    ensures c.Some? ==> c.value == comments
  {
    if comments == "" then None else Some(comments)
  }

  /** The `programs (title)` embedded in the read: the title of the program the
      approval refers to, when there is one. */
  function ContentTitle(s: Store, contentId: Id): Option<string> {
    if contentId in s.programs then Some(s.programs[contentId].title) else None
  }

  /** An undefined `content_title` is dropped from the stored JSON. */
  function TitleField(title: Option<string>): seq<(string, Json)> {
    if title.Some? then [("content_title", JStr(title.value))] else []
  }

  /** The church_leadership row an executive_producer approval creates. */
  function PromotionRow(row: Approval, id: Id, now: Instant): (r: Approval)
    ensures r.id == id && r.contentId == row.contentId && r.contentType == row.contentType
    ensures r.approvalLevel == Some(ChurchLeadership) && r.status == Some(Pending)
    ensures r.approverId.None? && r.comments.None? && r.createdAt == now
  {
    Approval(id, row.contentId, row.contentType, None, Some(ChurchLeadership), Some(Pending), None, now)
  }

  /** The acted-on row after a decision by `approver`. */
  function Decided(row: Approval, status: string, comments: string, approver: Id): Approval {
    row.(status := Some(status), comments := StoredComments(comments), approverId := Some(approver))
  }

  /** The catch block: log the error (the log insert may itself fail) and stop. */
  function Abort(s: Store, action: string, uid: Id, approvalId: Id, comments: string,
                 faults: Faults, at: Step, message: string, now: Instant): (h: Handled)
    ensures h.outcome == Aborted(at, message)
    ensures h.store.programs == s.programs && h.store.approvals == s.approvals
    ensures h.store.schedules == s.schedules && h.store.users == s.users
    ensures LogFailure in faults ==> h.store.auditLogs == s.auditLogs
    ensures LogFailure !in faults ==>
      && |h.store.auditLogs| == |s.auditLogs| + 1
      && h.store.auditLogs[|s.auditLogs|].action == action
    ensures s.auditLogs <= h.store.auditLogs
  {
    var details := Obj([("error", JStr(message)), ("comments", JStr(comments))]);
    Handled(LogAdminAction(s, action, "approval", uid, Some(approvalId), Some(details), LogFailure in faults, now),
            Aborted(at, message))
  }

  /** `handleApprove(approvalId, comments)` by the signed-in `actor`. `freshId`
      is the id the store gives a promotion row. */
  function Approve(s: Store, actor: Option<SessionUser>, approvalId: Id, comments: string,
                   faults: Faults, freshId: Id, now: Instant): (h: Handled)
    ensures actor.None? ==> h == Handled(s, NotSignedIn)
    ensures h.store.schedules == s.schedules && h.store.users == s.users
    ensures s.auditLogs <= h.store.auditLogs
    ensures s.approvals.Keys <= h.store.approvals.Keys
    ensures h.store.programs.Keys == s.programs.Keys
    ensures h.outcome.Aborted? && LogFailure !in faults ==>
      |h.store.auditLogs| > |s.auditLogs| && h.store.auditLogs[|h.store.auditLogs| - 1].action == "APPROVE_CONTENT_ERROR"
    // A throw stops the handler, so whatever it had not yet written stays as it was.
    ensures h.outcome.Aborted? && (h.outcome.at == ReadApproval || h.outcome.at == InsertPromotion) ==>
      h.store.approvals == s.approvals && h.store.programs == s.programs
    ensures h.outcome.Aborted? && h.outcome.at == UpdateApproval ==>
      && h.store.programs == s.programs
      && h.store.approvals.Keys <= s.approvals.Keys + {freshId}
      && (forall k :: k in s.approvals ==> h.store.approvals[k] == s.approvals[k])
    ensures h.outcome.Aborted? && h.outcome.at == UpdateApproval && approvalId in s.approvals
            && s.approvals[approvalId].approvalLevel != Some(ExecutiveProducer) ==>
      h.store.approvals == s.approvals
    ensures actor.Some? && h.outcome.Aborted? && h.outcome.at == UpdateProgram ==>
      && h.store.programs == s.programs
      && approvalId in s.approvals
      && h.store.approvals[approvalId] == Decided(s.approvals[approvalId], Approved, comments, actor.value.id)
  {
    if actor.None? then Handled(s, NotSignedIn)
    else
      var uid := actor.value.id;
      if ReadApproval in faults then
        Abort(s, "APPROVE_CONTENT_ERROR", uid, approvalId, comments, faults, ReadApproval, faults[ReadApproval], now)
      else if approvalId !in s.approvals then
        Abort(s, "APPROVE_CONTENT_ERROR", uid, approvalId, comments, faults, ReadApproval, RowNotFound, now)
      else
        var row := s.approvals[approvalId];
        var title := ContentTitle(s, row.contentId);
        var promote := row.approvalLevel == Some(ExecutiveProducer);
        if promote && InsertPromotion in faults then
          Abort(s, "APPROVE_CONTENT_ERROR", uid, approvalId, comments, faults, InsertPromotion, faults[InsertPromotion], now)
        else if promote && freshId in s.approvals then
          Abort(s, "APPROVE_CONTENT_ERROR", uid, approvalId, comments, faults, InsertPromotion, DuplicateKey, now)
        else
          var s1 := if promote then s.(approvals := s.approvals[freshId := PromotionRow(row, freshId, now)]) else s;
          if UpdateApproval in faults then
            Abort(s1, "APPROVE_CONTENT_ERROR", uid, approvalId, comments, faults, UpdateApproval, faults[UpdateApproval], now)
          else
            var s2 := s1.(approvals := s1.approvals[approvalId := Decided(row, Approved, comments, uid)]);
            var details := Obj([("approval_level", StrOrNull(row.approvalLevel)),
                                ("content_id", JStr(row.contentId)),
                                ("content_type", JStr(row.contentType))]
                               + TitleField(title) + [("comments", JStr(comments))]);
            var s3 := LogAdminAction(s2, "APPROVE_CONTENT", "approval", uid, Some(approvalId), Some(details),
                                     LogDecision in faults, now);
            if row.approvalLevel != Some(ChurchLeadership) then Handled(s3, Completed)
            else if UpdateProgram in faults then
              Abort(s3, "APPROVE_CONTENT_ERROR", uid, approvalId, comments, faults, UpdateProgram, faults[UpdateProgram], now)
            else
              var s4 := SetProgramStatus(s3, row.contentId, Approved);
              var final := Obj(TitleField(title) + [("approval_level", StrOrNull(row.approvalLevel))]);
              Handled(LogAdminAction(s4, "CONTENT_APPROVED", "program", uid, Some(row.contentId), Some(final),
                                     LogContentStatus in faults, now),
                      Completed)
  }

  /** `handleReject(approvalId, comments)` by the signed-in `actor`. */
  function Reject(s: Store, actor: Option<SessionUser>, approvalId: Id, comments: string,
                  faults: Faults, now: Instant): (h: Handled)
    ensures actor.None? ==> h == Handled(s, NotSignedIn)
    ensures h.store.schedules == s.schedules && h.store.users == s.users
    ensures s.auditLogs <= h.store.auditLogs
    ensures h.store.approvals.Keys == s.approvals.Keys
    ensures h.store.programs.Keys == s.programs.Keys
    ensures h.outcome.Aborted? && LogFailure !in faults ==>
      |h.store.auditLogs| > |s.auditLogs| && h.store.auditLogs[|h.store.auditLogs| - 1].action == "REJECT_CONTENT_ERROR"
    // A throw stops the handler, so whatever it had not yet written stays as it was.
    ensures h.outcome.Aborted? && (h.outcome.at == ReadApproval || h.outcome.at == UpdateApproval) ==>
      h.store.approvals == s.approvals && h.store.programs == s.programs
    ensures actor.Some? && h.outcome.Aborted? && h.outcome.at == UpdateProgram ==>
      && h.store.programs == s.programs
      && approvalId in s.approvals
      && h.store.approvals == s.approvals[approvalId := Decided(s.approvals[approvalId], Rejected, comments, actor.value.id)]
  {
    if actor.None? then Handled(s, NotSignedIn)
    else
      var uid := actor.value.id;
      if ReadApproval in faults then
        Abort(s, "REJECT_CONTENT_ERROR", uid, approvalId, comments, faults, ReadApproval, faults[ReadApproval], now)
      else if approvalId !in s.approvals then
        Abort(s, "REJECT_CONTENT_ERROR", uid, approvalId, comments, faults, ReadApproval, RowNotFound, now)
      else
        var row := s.approvals[approvalId];
        var title := ContentTitle(s, row.contentId);
        if UpdateApproval in faults then
          Abort(s, "REJECT_CONTENT_ERROR", uid, approvalId, comments, faults, UpdateApproval, faults[UpdateApproval], now)
        else
          var s1 := s.(approvals := s.approvals[approvalId := Decided(row, Rejected, comments, uid)]);
          var details := Obj([("approval_level", StrOrNull(row.approvalLevel)),
                              ("content_id", JStr(row.contentId)),
                              ("content_type", JStr(row.contentType))]
                             + TitleField(title) + [("comments", JStr(comments))]);
          var s2 := LogAdminAction(s1, "REJECT_CONTENT", "approval", uid, Some(approvalId), Some(details),
                                   LogDecision in faults, now);
          if UpdateProgram in faults then
            Abort(s2, "REJECT_CONTENT_ERROR", uid, approvalId, comments, faults, UpdateProgram, faults[UpdateProgram], now)
          else
            var s3 := SetProgramStatus(s2, row.contentId, Rejected);
            var final := Obj(TitleField(title) + [("approval_level", StrOrNull(row.approvalLevel)),
                                                  ("comments", JStr(comments))]);
            Handled(LogAdminAction(s3, "CONTENT_REJECTED", "program", uid, Some(row.contentId), Some(final),
                                   LogContentStatus in faults, now),
                    Completed)
  }

  /** `fetchPendingApprovals`: the ids of rows whose status is exactly
      `pending`, newest first. On a read error the page keeps `previous`. */
  method FetchPendingApprovals(s: Store, readFails: bool, previous: seq<Id>) returns (ids: seq<Id>)
    ensures readFails ==> ids == previous
    ensures !readFails ==> Listing.Distinct(ids)
    ensures !readFails ==> forall id :: id in ids <==> id in s.approvals && s.approvals[id].status == Some(Pending)
    ensures !readFails ==> forall i, j :: 0 <= i < j < |ids| ==>
      s.approvals[ids[i]].createdAt >= s.approvals[ids[j]].createdAt
  {
    if readFails {
      ids := previous;
    } else {
      ids := Listing.SelectSorted(s.approvals, (a: Approval) => a.status == Some(Pending), (a: Approval) => -a.createdAt);
    }
  }
}

/** What one approve or reject call does to the store, case by case. */
module ApprovalProperties {
  import opened Wrappers
  import opened Rows
  import opened ApprovalWorkflow

  /** None of the table reads and writes fails; audit inserts may. */
  predicate TableCallsSucceed(faults: Faults) {
    ReadApproval !in faults && InsertPromotion !in faults && UpdateApproval !in faults && UpdateProgram !in faults
  }

  /** Approving an executive_producer row inserts exactly one new row, a pending
      church_leadership request for the same content, marks the acted-on row
      approved by the actor, and leaves every program untouched. */
  lemma ApproveExecutiveProducer(s: Store, actor: SessionUser, approvalId: Id, comments: string,
                                 faults: Faults, freshId: Id, now: Instant)
    requires approvalId in s.approvals && s.approvals[approvalId].approvalLevel == Some(ExecutiveProducer)
    requires TableCallsSucceed(faults) && freshId !in s.approvals
    ensures
      var h := Approve(s, Some(actor), approvalId, comments, faults, freshId, now);
      var row := s.approvals[approvalId];
      && h.outcome == Completed
      && h.store.approvals == s.approvals[freshId := PromotionRow(row, freshId, now)]
                                         [approvalId := Decided(row, Approved, comments, actor.id)]
      && h.store.approvals.Keys == s.approvals.Keys + {freshId}
      && h.store.approvals[freshId] == PromotionRow(row, freshId, now)
      && h.store.approvals[approvalId] == row.(status := Some(Approved), approverId := Some(actor.id),
                                               comments := StoredComments(comments))
      && (forall k :: k in s.approvals && k != approvalId ==> h.store.approvals[k] == s.approvals[k])
      && h.store.programs == s.programs
  {
  }

  /** Approving a church_leadership row inserts nothing, marks the row approved
      and sets its program (when it exists) to approved, and no other program. */
  lemma ApproveChurchLeadership(s: Store, actor: SessionUser, approvalId: Id, comments: string,
                                faults: Faults, freshId: Id, now: Instant)
    requires approvalId in s.approvals && s.approvals[approvalId].approvalLevel == Some(ChurchLeadership)
    requires TableCallsSucceed(faults)
    ensures
      var h := Approve(s, Some(actor), approvalId, comments, faults, freshId, now);
      var row := s.approvals[approvalId];
      && h.outcome == Completed
      && h.store.approvals == s.approvals[approvalId := Decided(row, Approved, comments, actor.id)]
      && (row.contentId in s.programs ==>
          h.store.programs[row.contentId] == s.programs[row.contentId].(approvalStatus := Some(Approved)))
      && (forall k :: k in s.programs && k != row.contentId ==> h.store.programs[k] == s.programs[k])
  {
  }

  /** Approving a row of any other level, or of none, changes only that row. */
  lemma ApproveOtherLevel(s: Store, actor: SessionUser, approvalId: Id, comments: string,
                          faults: Faults, freshId: Id, now: Instant)
    requires approvalId in s.approvals
    requires s.approvals[approvalId].approvalLevel != Some(ExecutiveProducer)
    requires s.approvals[approvalId].approvalLevel != Some(ChurchLeadership)
    requires TableCallsSucceed(faults)
    ensures
      var h := Approve(s, Some(actor), approvalId, comments, faults, freshId, now);
      && h.outcome == Completed
      && h.store.approvals == s.approvals[approvalId := Decided(s.approvals[approvalId], Approved, comments, actor.id)]
      && h.store.programs == s.programs
  {
  }

  /** Rejecting at any level marks the row rejected by the actor, sets its
      program (when it exists) to rejected, and inserts no approval row. */
  lemma RejectAtAnyLevel(s: Store, actor: SessionUser, approvalId: Id, comments: string,
                         faults: Faults, now: Instant)
    requires approvalId in s.approvals && TableCallsSucceed(faults)
    ensures
      var h := Reject(s, Some(actor), approvalId, comments, faults, now);
      var row := s.approvals[approvalId];
      && h.outcome == Completed
      && h.store.approvals == s.approvals[approvalId := Decided(row, Rejected, comments, actor.id)]
      && h.store.approvals[approvalId].comments == StoredComments(comments)
      && (row.contentId in s.programs ==>
          h.store.programs[row.contentId] == s.programs[row.contentId].(approvalStatus := Some(Rejected)))
      && (forall k :: k in s.programs && k != row.contentId ==> h.store.programs[k] == s.programs[k])
  {
  }

  /** The approve steps are not atomic: when the update of the acted-on row
      fails after the promotion insert, the new pending church_leadership row
      stays beside the untouched original, and an error entry is logged. */
  lemma PromotionSurvivesFailedUpdate(s: Store, actor: SessionUser, approvalId: Id, comments: string,
                                      faults: Faults, freshId: Id, now: Instant)
    requires approvalId in s.approvals && s.approvals[approvalId].approvalLevel == Some(ExecutiveProducer)
    requires ReadApproval !in faults && InsertPromotion !in faults && freshId !in s.approvals
    requires UpdateApproval in faults && LogFailure !in faults
    ensures
      var h := Approve(s, Some(actor), approvalId, comments, faults, freshId, now);
      && h.outcome == Aborted(UpdateApproval, faults[UpdateApproval])
      && h.store.approvals == s.approvals[freshId := PromotionRow(s.approvals[approvalId], freshId, now)]
      && h.store.approvals[approvalId] == s.approvals[approvalId]
      && h.store.programs == s.programs
      && h.store.auditLogs[|h.store.auditLogs| - 1].action == "APPROVE_CONTENT_ERROR"
  {
  }

  /** A failed program update after a church_leadership approval leaves the row
      approved while the program keeps its old status. */
  lemma ProgramUpdateFailureLeavesRowApproved(s: Store, actor: SessionUser, approvalId: Id, comments: string,
                                              faults: Faults, freshId: Id, now: Instant)
    requires approvalId in s.approvals && s.approvals[approvalId].approvalLevel == Some(ChurchLeadership)
    requires ReadApproval !in faults && UpdateApproval !in faults && UpdateProgram in faults
    ensures
      var h := Approve(s, Some(actor), approvalId, comments, faults, freshId, now);
      && h.outcome.Aborted? && h.outcome.at == UpdateProgram
      && h.store.approvals[approvalId].status == Some(Approved)
      && h.store.programs == s.programs
  {
  }

  /** The rejection's counterpart: when the program update throws, the row
      stays rejected by the actor while its program keeps its old status. */
  lemma ProgramUpdateFailureLeavesRowRejected(s: Store, actor: SessionUser, approvalId: Id, comments: string,
                                              faults: Faults, now: Instant)
    requires approvalId in s.approvals
    requires ReadApproval !in faults && UpdateApproval !in faults && UpdateProgram in faults
    ensures
      var h := Reject(s, Some(actor), approvalId, comments, faults, now);
      && h.outcome.Aborted? && h.outcome.at == UpdateProgram
      && h.store.approvals[approvalId].status == Some(Rejected)
      && h.store.approvals[approvalId].approverId == Some(actor.id)
      && h.store.programs == s.programs
  {
  }

  /** The handlers do not re-check the row's status: approving an
      executive_producer row that was already rejected still promotes it.
      Only the pending listing keeps such rows out of reach. */
  lemma ApproveIgnoresStatus(s: Store, actor: SessionUser, approvalId: Id, freshId: Id, now: Instant)
    requires approvalId in s.approvals && freshId !in s.approvals
    requires s.approvals[approvalId].approvalLevel == Some(ExecutiveProducer)
    requires s.approvals[approvalId].status == Some(Rejected)
    ensures
      var h := Approve(s, Some(actor), approvalId, "", map[], freshId, now);
      && h.store.approvals[approvalId].status == Some(Approved)
      && h.store.approvals[freshId].status == Some(Pending)
  {
  }

  /** Retrying an approve whose row update failed duplicates the promotion:
      the content then has two pending church_leadership rows. */
  lemma RetryDuplicatesPendingPromotion(s: Store, actor: SessionUser, approvalId: Id, comments: string,
                                        first: Id, second: Id, now: Instant)
    requires approvalId in s.approvals && s.approvals[approvalId].approvalLevel == Some(ExecutiveProducer)
    requires first !in s.approvals && second !in s.approvals && first != second
    ensures
      var failed := Approve(s, Some(actor), approvalId, comments, map[UpdateApproval := "timeout"], first, now);
      var retried := Approve(failed.store, Some(actor), approvalId, comments, map[], second, now);
      var c := s.approvals[approvalId].contentId;
      && retried.outcome == Completed
      && first in retried.store.approvals && second in retried.store.approvals
      && retried.store.approvals[first].contentId == c && retried.store.approvals[second].contentId == c
      && retried.store.approvals[first].approvalLevel == Some(ChurchLeadership)
      && retried.store.approvals[second].approvalLevel == Some(ChurchLeadership)
      && retried.store.approvals[first].status == Some(Pending)
      && retried.store.approvals[second].status == Some(Pending)
  {
  }
}

=== FILE: audit.dfy ===
/** `logAdminAction`: the fire-and-forget audit insert (src/lib/audit.ts). */
module Audit {
  import opened Wrappers
  import opened Rows

  /** The row the insert carries: an absent or empty resource id and absent or
      falsy details are stored as null. */
  function Entry(action: string, resourceType: string, userId: Id,
                 resourceId: Option<Id>, details: Option<Json>, now: Instant): AuditLog
  {
    AuditLog(
      action,
      resourceType,
      if resourceId.None? || resourceId == Some("") then None else resourceId,
      Some(userId),
      if details.None? || details.value.Falsy() then None else details,
      now)
  }

  /** Appends one audit row unless the insert fails; a failure is only warned
      about, so the call itself never fails and the caller carries on. */
  function LogAdminAction(s: Store, action: string, resourceType: string, userId: Id,
                          resourceId: Option<Id>, details: Option<Json>,
                          insertFails: bool, now: Instant): (s': Store)
    ensures s'.programs == s.programs && s'.approvals == s.approvals
    ensures s'.schedules == s.schedules && s'.users == s.users
    ensures insertFails ==> s' == s
    ensures !insertFails ==> |s'.auditLogs| == |s.auditLogs| + 1
    ensures s.auditLogs <= s'.auditLogs
    ensures !insertFails ==>
      var e := s'.auditLogs[|s.auditLogs|];
      && e.action == action && e.resourceType == resourceType && e.userId == Some(userId)
      && (e.resourceId.None? <==> resourceId.None? || resourceId == Some(""))
      && (e.resourceId.Some? ==> e.resourceId == resourceId)
      && (e.details.None? <==> details.None? || details.value.Falsy())
      && (e.details.Some? ==> e.details == details)
  {
    if insertFails then s
    else s.(auditLogs := s.auditLogs + [Entry(action, resourceType, userId, resourceId, details, now)])
  }

  /** An object-valued details payload. */
  function Obj(fields: seq<(string, Json)>): (j: Json)
    ensures !j.Falsy()
  {
    JObj(fields)
  }

  /** Text or null, as a nullable column is serialised. */
  function StrOrNull(v: Option<string>): Json {
    match v
    case Some(t) => JStr(t)
    case None => JNull
  }
}

=== FILE: content.dfy ===
/** The content page (src/app/admin/content/page.tsx): the filtered program
    listing, the direct approve/reject override, which buttons a row offers,
    and the status badge. */
module ContentAdmin {
  import opened Wrappers
  import opened Rows
  import opened Text
  import opened StoreOps
  import Listing

  /** The three filter controls; `all` switches a select filter off. */
  datatype ContentFilter = ContentFilter(searchTerm: string, genre: string, status: string)

  /** A program passes the filters: title contains the search term ignoring
      case (when a term is given), genre and status equal the selections. */
  predicate Listed(p: Program, f: ContentFilter) {
    && (f.searchTerm == "" || ContainsIgnoringCase(p.title, f.searchTerm))
    && (f.genre == All || p.genre == Some(f.genre))
    && (f.status == All || p.approvalStatus == Some(f.status))
  }

  /** `fetchPrograms`: the programs that pass the filters, newest first. On a
      read error the page keeps its `previous` list. The table is keyed by
      its `id` column, so each row is listed once. */
  method FetchPrograms(s: Store, f: ContentFilter, readFails: bool, previous: seq<Program>)
    returns (programs: seq<Program>)
    requires KeysMatchIds(s)
    ensures readFails ==> programs == previous
    ensures !readFails ==> forall i :: 0 <= i < |programs| ==> Listed(programs[i], f)
    ensures !readFails ==> forall k :: k in s.programs && Listed(s.programs[k], f) ==> s.programs[k] in programs
    ensures !readFails ==> forall p :: p in programs ==> p in s.programs.Values
    ensures !readFails ==> forall i, j :: 0 <= i < j < |programs| ==> programs[i].id != programs[j].id
    ensures !readFails ==> forall i, j :: 0 <= i < j < |programs| ==> programs[i].createdAt >= programs[j].createdAt
  {
    if readFails {
      return previous;
    }
    var ids := Listing.SelectSorted(s.programs, (p: Program) => Listed(p, f), (p: Program) => -p.createdAt);
    programs := seq(|ids|, i requires 0 <= i < |ids| => s.programs[ids[i]]);
    forall k | k in s.programs && Listed(s.programs[k], f) ensures s.programs[k] in programs {
      var i :| 0 <= i < |ids| && ids[i] == k;
      assert programs[i] == s.programs[k];
    }
  }

  /** The page after an override: the store and its local program list. */
  datatype Overridden = Overridden(store: Store, programs: seq<Program>)

  /** The shared body of `handleApprove` and `handleReject` on this page: one
      update of the program's status; on success the same change is made to the
      local list, on a store error neither changes. */
  function Override(s: Store, programs: seq<Program>, programId: Id, status: string, fails: bool): (r: Overridden)
    ensures fails ==> r == Overridden(s, programs)
    ensures r.store.approvals == s.approvals && r.store.schedules == s.schedules
    ensures r.store.users == s.users && r.store.auditLogs == s.auditLogs
    ensures r.store.programs.Keys == s.programs.Keys
    ensures !fails && programId in s.programs ==>
      r.store.programs[programId] == s.programs[programId].(approvalStatus := Some(status))
    ensures forall k :: k in s.programs && k != programId ==> r.store.programs[k] == s.programs[k]
    ensures |r.programs| == |programs|
    ensures forall i :: 0 <= i < |programs| && programs[i].id != programId ==> r.programs[i] == programs[i]
    ensures forall i :: 0 <= i < |programs| && programs[i].id == programId ==>
      r.programs[i] == if fails then programs[i] else programs[i].(approvalStatus := Some(status))
  {
    if fails then Overridden(s, programs)
    else
      Overridden(SetProgramStatus(s, programId, status),
                 seq(|programs|, i requires 0 <= i < |programs| =>
                   if programs[i].id == programId then programs[i].(approvalStatus := Some(status)) else programs[i]))
  }

  /** Approve on the content page: sets the program approved directly. */
  function ApproveProgram(s: Store, programs: seq<Program>, programId: Id, fails: bool): (r: Overridden)
    ensures fails ==> r == Overridden(s, programs)
    ensures r.store.approvals == s.approvals && r.store.programs.Keys == s.programs.Keys
    ensures !fails && programId in s.programs ==>
      r.store.programs[programId] == s.programs[programId].(approvalStatus := Some(Approved))
    ensures forall k :: k in s.programs && k != programId ==> r.store.programs[k] == s.programs[k]
    ensures |r.programs| == |programs|
    ensures forall i :: 0 <= i < |programs| ==>
      r.programs[i] == if programs[i].id == programId && !fails
                       then programs[i].(approvalStatus := Some(Approved)) else programs[i]
  {
    Override(s, programs, programId, Approved, fails)
  }

  /** Reject on the content page: sets the program rejected directly. */
  function RejectProgram(s: Store, programs: seq<Program>, programId: Id, fails: bool): (r: Overridden)
    ensures fails ==> r == Overridden(s, programs)
    ensures r.store.approvals == s.approvals && r.store.programs.Keys == s.programs.Keys
    ensures !fails && programId in s.programs ==>
      r.store.programs[programId] == s.programs[programId].(approvalStatus := Some(Rejected))
    ensures forall k :: k in s.programs && k != programId ==> r.store.programs[k] == s.programs[k]
    ensures |r.programs| == |programs|
    ensures forall i :: 0 <= i < |programs| ==>
      r.programs[i] == if programs[i].id == programId && !fails
                       then programs[i].(approvalStatus := Some(Rejected)) else programs[i]
  {
    Override(s, programs, programId, Rejected, fails)
  }

  predicate ApproveOffered(status: Option<string>) {
    status != Some(Approved)
  }

  predicate RejectOffered(status: Option<string>) {
    status != Some(Rejected)
  }

  /** Which buttons a row offers: both for pending, null or any other status;
      only Reject once approved, only Approve once rejected; never none. */
  lemma OfferedButtons(status: Option<string>)
    ensures ApproveOffered(status) && RejectOffered(status) <==> status != Some(Approved) && status != Some(Rejected)
    ensures ApproveOffered(status) || RejectOffered(status)
    ensures status == Some(Pending) || status.None? ==> ApproveOffered(status) && RejectOffered(status)
  {
  }

  /** The override bypasses the two-stage chain: approving here needs no
      approval row, writes none, and after it the row offers only Reject. */
  lemma OverrideBypassesChain(s: Store, programs: seq<Program>, programId: Id)
    requires programId in s.programs
    ensures
      var r := ApproveProgram(s, programs, programId, false);
      && r.store.approvals == s.approvals
      && r.store.programs[programId].approvalStatus == Some(Approved)
      && !ApproveOffered(r.store.programs[programId].approvalStatus)
      && RejectOffered(r.store.programs[programId].approvalStatus)
  {
  }

  datatype BadgeVariant = DefaultBadge | DestructiveBadge | SecondaryBadge | OutlineBadge

  datatype Badge = Badge(variant: BadgeVariant, caption: string)

  /** `getStatusBadge`: three known statuses get their own badge; anything
      else shows its own text in an outline badge, or `Unknown` when empty. */
  function StatusBadge(status: Option<string>): (b: Badge)
    ensures b.variant == OutlineBadge <==>
      status != Some(Approved) && status != Some(Rejected) && status != Some(Pending)
    ensures b.variant == OutlineBadge ==>
      b.caption == if status.None? || status == Some("") then "Unknown" else status.value
    ensures b.variant == DefaultBadge <==> status == Some(Approved)
    ensures b.variant == DestructiveBadge <==> status == Some(Rejected)
  {
    match status
    case Some(t) =>
      if t == Approved then Badge(DefaultBadge, "Approved")
      else if t == Rejected then Badge(DestructiveBadge, "Rejected")
      else if t == Pending then Badge(SecondaryBadge, "Pending")
      else Badge(OutlineBadge, if t == "" then "Unknown" else t)
    case None => Badge(OutlineBadge, "Unknown")
  }
}

=== FILE: guide.dfy ===
/** The viewer's program guide (src/components/program-guide.tsx): which
    schedule rows are listed, when a row is live, its colour and genre label. */
module ProgramGuide {
  import opened Wrappers
  import opened Rows
  import opened Text
  import Listing

  const GuideLimit: nat := 10

  const DefaultColor: string := "bg-gray-100 border-gray-200"

  /** `genreColors`, including its `default` entry. */
  const GenreColors: map<string, string> := map[
    "worship_services" := "bg-blue-100 border-blue-200",
    "talk_shows" := "bg-green-100 border-green-200",
    "youth_programs" := "bg-yellow-100 border-yellow-200",
    "womens_shows" := "bg-pink-100 border-pink-200",
    "mens_shows" := "bg-indigo-100 border-indigo-200",
    "default" := DefaultColor]

  /** The guide query's filter: the row ends strictly after now. */
  predicate StillOn(x: Schedule, now: Instant) {
    x.endTime > now
  }

  /** `fetchSchedule`: rows still running or to come (end strictly after now),
      earliest start first, at most ten. On a read error the guide keeps
      `previous`. */
  method GuideListing(s: Store, now: Instant, readFails: bool, previous: seq<Id>) returns (ids: seq<Id>)
    ensures readFails ==> ids == previous
    ensures !readFails ==> |ids| <= GuideLimit && Listing.Distinct(ids)
    ensures !readFails ==> forall i :: 0 <= i < |ids| ==> ids[i] in s.schedules && StillOn(s.schedules[ids[i]], now)
    ensures !readFails ==> forall i, j :: 0 <= i < j < |ids| ==>
      s.schedules[ids[i]].startTime <= s.schedules[ids[j]].startTime
    // A row left out is either finished, or the list is full of rows starting no later.
    ensures !readFails ==> forall k :: k in s.schedules && StillOn(s.schedules[k], now) && k !in ids ==>
      |ids| == GuideLimit && forall i :: 0 <= i < |ids| ==> s.schedules[ids[i]].startTime <= s.schedules[k].startTime
  {
    if readFails {
      return previous;
    }
    var all := Listing.SelectSorted(s.schedules, (x: Schedule) => StillOn(x, now), (x: Schedule) => x.startTime);
    ids := Listing.Take(all, GuideLimit);
    forall k | k in s.schedules && StillOn(s.schedules[k], now) && k !in ids
      ensures |ids| == GuideLimit
      ensures forall i :: 0 <= i < |ids| ==> s.schedules[ids[i]].startTime <= s.schedules[k].startTime
    {
      var j :| 0 <= j < |all| && all[j] == k;
      forall i | 0 <= i < |ids| ensures s.schedules[ids[i]].startTime <= s.schedules[k].startTime {
        assert ids[i] == all[i];
      }
    }
  }

  /** `isLive`: now lies in the closed interval from start to end. */
  function IsLive(start: Instant, end: Instant, now: Instant): (live: bool)
    ensures live ==> start <= now && now <= end
    ensures !live ==> now < start || end < now
  {
    now >= start && now <= end
  }

  /** The colour class of a row: the entry for its genre, or the default entry
      when the genre is missing, empty or not in the table. */
  function ColorClass(genre: Option<string>): (c: string)
    ensures c in GenreColors.Values
    ensures genre.Some? && genre.value in GenreColors ==> c == GenreColors[genre.value]
    ensures c == DefaultColor <==> genre.None? || genre.value !in GenreColors || genre.value == "default"
  {
    var key := if genre.None? || genre.value == "" then "default" else genre.value;
    assert GenreColors["default"] == DefaultColor;
    if key in GenreColors then GenreColors[key] else DefaultColor
  }

  /** A genre name as shown: only its first underscore becomes a space. */
  function GenreLabel(name: string): (l: string)
    ensures |l| == |name|
    ensures '_' !in name ==> l == name
    ensures forall j :: 0 <= j < |name| && name[j] == '_' && '_' !in name[..j] ==> l[j] == ' '
    ensures forall j :: 0 <= j < |name| && l[j] != name[j] ==> name[j] == '_' && '_' !in name[..j]
  {
    ReplaceFirst(name, '_', ' ')
  }

  /** Only the first underscore of a name is replaced. */
  lemma GenreLabelExample()
    ensures GenreLabel("a_b_c") == "a b_c"
  {
    var s, l := "a_b_c", GenreLabel("a_b_c");
    assert s[..1] == "a";
    assert l[1] == ' ';
    assert forall j :: 0 <= j < 5 && j != 1 ==> l[j] == s[j];
  }

  /** The row's program exists and has a null genre. */
  predicate NullGenre(s: Store, x: Schedule) {
    x.programId in s.programs && s.programs[x.programId].genre.None?
  }

  /** What the genre line of a listed row renders to. */
  datatype GenreLine = Line(text: string) | Throws

  /** `item.programs?.genre.replace(/_/, ' ')`: the `?.` guards only the joined
      program. A row without a program shows an empty line; a program whose
      genre is null makes the call on `genre` throw. */
  function RowGenreLine(s: Store, x: Schedule): (g: GenreLine)
    ensures g.Throws? <==> NullGenre(s, x)
    ensures g.Line? ==> |g.text| == if x.programId in s.programs then |s.programs[x.programId].genre.value| else 0
    ensures g.Line? && x.programId in s.programs ==> GenreLabel(s.programs[x.programId].genre.value) == g.text
  {
    if x.programId !in s.programs then Line("")
    else
      var genre := s.programs[x.programId].genre;
      if genre.None? then Throws else Line(GenreLabel(genre.value))
  }

  /** The genre lines of the listed rows, in order, or `None` when one of them
      throws: a throw during render takes the whole list down. */
  function GenreLines(s: Store, ids: seq<Id>): (lines: Option<seq<string>>)
    requires forall i :: 0 <= i < |ids| ==> ids[i] in s.schedules
    ensures lines.Some? ==> |lines.value| == |ids|
    ensures lines.Some? ==> forall i :: 0 <= i < |ids| ==> RowGenreLine(s, s.schedules[ids[i]]) == Line(lines.value[i])
    decreases |ids|
  {
    if ids == [] then Some([])
    else
      var first := RowGenreLine(s, s.schedules[ids[0]]);
      var rest := GenreLines(s, ids[1..]);
      if first.Throws? || rest.None? then None
      else
        var r := [first.text] + rest.value;
        assert forall i :: 1 <= i < |ids| ==> ids[i] == ids[1..][i - 1] && r[i] == rest.value[i - 1];
        Some(r)
  }
}

/** Properties of the guide's rendering. */
module ProgramGuideProperties {
  import opened Wrappers
  import opened Rows
  import opened ProgramGuide

  /** The guide renders exactly when no listed row's program has a null genre. */
  lemma {:induction false} NullGenreBreaksGuide(s: Store, ids: seq<Id>)
    requires forall i :: 0 <= i < |ids| ==> ids[i] in s.schedules
    ensures GenreLines(s, ids).None? <==> exists i :: 0 <= i < |ids| && NullGenre(s, s.schedules[ids[i]])
    decreases |ids|
  {
    if ids != [] {
      NullGenreBreaksGuide(s, ids[1..]);
      assert forall i :: 1 <= i < |ids| ==> ids[1..][i - 1] == ids[i];
      if exists i :: 0 <= i < |ids[1..]| && NullGenre(s, s.schedules[ids[1..][i]]) {
        var i :| 0 <= i < |ids[1..]| && NullGenre(s, s.schedules[ids[1..][i]]);
        assert NullGenre(s, s.schedules[ids[i + 1]]);
      }
    }
  }

  /** One listed row whose program has a null genre is enough to break the guide. */
  lemma OneNullGenreBreaksGuide(s: Store, ids: seq<Id>, k: nat)
    requires forall i :: 0 <= i < |ids| ==> ids[i] in s.schedules
    requires k < |ids| && NullGenre(s, s.schedules[ids[k]])
    ensures GenreLines(s, ids).None?
  {
    NullGenreBreaksGuide(s, ids);
  }
}

/** "Coming up next" (src/components/coming-up-next.tsx). */
module ComingUpNext {
  import opened Wrappers
  import opened Rows
  import Listing

  /** The row with the earliest start strictly after now, on any channel. A
      read error or no such row leaves nothing to show. */
  method NextProgram(s: Store, now: Instant, readFails: bool) returns (next: Option<Id>)
    ensures readFails ==> next.None?
    ensures !readFails ==> (next.None? <==> forall k :: k in s.schedules ==> s.schedules[k].startTime <= now)
    ensures next.Some? ==> next.value in s.schedules && s.schedules[next.value].startTime > now
    ensures next.Some? ==> forall k :: k in s.schedules && s.schedules[k].startTime > now ==>
      s.schedules[next.value].startTime <= s.schedules[k].startTime
  {
    if readFails {
      return None;
    }
    var upcoming := Listing.SelectSorted(s.schedules, (x: Schedule) => x.startTime > now, (x: Schedule) => x.startTime);
    if upcoming == [] {
      next := None;
    } else {
      next := Some(upcoming[0]);
      forall k | k in s.schedules && s.schedules[k].startTime > now
        ensures s.schedules[upcoming[0]].startTime <= s.schedules[k].startTime
      {
        var j :| 0 <= j < |upcoming| && upcoming[j] == k;
        if j > 0 {
          assert s.schedules[upcoming[0]].startTime <= s.schedules[upcoming[j]].startTime;
        }
      }
    }
  }
}

/** The site uses two conventions for the instant a row ends: the guide's
    live badge closes the interval, while the guide query and the scheduling
    conflict query leave the end instant out. */
module IntervalConventions {
  import opened Rows
  import ProgramGuide
  import Scheduling

  /** A row is badged live yet already dropped from the guide exactly when it
      ends at this very instant. */
  lemma LiveButNotListed(x: Schedule, now: Instant)
    ensures ProgramGuide.IsLive(x.startTime, x.endTime, now) && !ProgramGuide.StillOn(x, now)
        <==> x.startTime <= now && x.endTime == now
  {
  }

  /** A row still badged live at its end instant does not block a slot that
      starts at that instant, on any channel and of any length. */
  lemma EndInstantFreeForConflicts(x: Schedule, now: Instant, minutes: int, channel: string)
    requires x.startTime <= x.endTime == now
    ensures ProgramGuide.IsLive(x.startTime, x.endTime, now)
    ensures !Scheduling.Conflicts(x, now, now + minutes * MillisPerMinute, channel)
  {
  }
}

=== FILE: listing.dfy ===
/** Ordered listings of a table: the rows a query's filters keep, in the order of
    its `.order(...)` clause. Rows of equal rank come in an order the store does
    not specify; here they keep the order in which they were picked. */
module Listing {

  predicate Distinct<K(==)>(s: seq<K>) {
    forall i, j :: 0 <= i < j < |s| ==> s[i] != s[j]
  }

  predicate SortedBy<K>(s: seq<K>, rank: K -> int) {
    forall i, j :: 0 <= i < j < |s| ==> rank(s[i]) <= rank(s[j])
  }

  /** Prepending an element whose rank is not above any other keeps a sequence sorted. */
  lemma SortedCons<K>(x: K, s: seq<K>, rank: K -> int)
    requires SortedBy(s, rank)
    requires forall i :: 0 <= i < |s| ==> rank(x) <= rank(s[i])
    ensures SortedBy([x] + s, rank)
  {
    var r := [x] + s;
    forall i, j | 0 <= i < j < |r| ensures rank(r[i]) <= rank(r[j]) {
      assert r[j] == s[j - 1];
      if 0 < i {
        assert r[i] == s[i - 1];
      }
    }
  }

  lemma DistinctCons<K>(x: K, s: seq<K>)
    requires Distinct(s) && x !in s
    ensures Distinct([x] + s)
  {
    var r := [x] + s;
    forall i, j | 0 <= i < j < |r| ensures r[i] != r[j] {
      assert r[j] == s[j - 1];
      if 0 < i {
        assert r[i] == s[i - 1];
      }
    }
  }

  /** Inserts `k` after every element whose rank is not above its own. */
  function InsertByRank<K(==, !new)>(s: seq<K>, k: K, rank: K -> int): (r: seq<K>)
    requires SortedBy(s, rank)
    ensures SortedBy(r, rank)
    ensures |r| == |s| + 1
    ensures forall x :: x in r <==> x in s || x == k
    ensures Distinct(s) && k !in s ==> Distinct(r)
  {
    if s == [] then [k]
    else if rank(k) < rank(s[0]) then
      SortedCons(k, s, rank);
      [k] + s
    else
      var tail := s[1..];
      assert SortedBy(tail, rank);
      var rest := InsertByRank(tail, k, rank);
      assert forall i :: 0 <= i < |rest| ==> rank(s[0]) <= rank(rest[i]) by {
        forall i | 0 <= i < |rest| ensures rank(s[0]) <= rank(rest[i]) {
          var x := rest[i];
          assert x in rest;
          if x != k {
            var j :| 0 <= j < |tail| && tail[j] == x;
            assert s[j + 1] == x;
          }
        }
      }
      SortedCons(s[0], rest, rank);
      assert s == [s[0]] + tail;
      assert Distinct(s) && k !in s ==> Distinct([s[0]] + rest) by {
        if Distinct(s) && k !in s {
          assert Distinct(tail);
          assert s[0] !in tail;
          DistinctCons(s[0], rest);
        }
      }
      [s[0]] + rest
  }

  /** The keys of `m` whose rows `keep` accepts, each once, in ascending `rank`. */
  method SelectSorted<K(==, !new), V>(m: map<K, V>, keep: V -> bool, rank: V -> int) returns (r: seq<K>)
    ensures Distinct(r)
    ensures forall k :: k in r <==> k in m && keep(m[k])
    ensures forall i, j :: 0 <= i < j < |r| ==> rank(m[r[i]]) <= rank(m[r[j]])
  {
    var keyRank := (k: K) => if k in m then rank(m[k]) else 0;
    var todo := m.Keys;
    r := [];
    while todo != {}
      invariant todo <= m.Keys
      invariant Distinct(r)
      invariant forall k :: k in r ==> k in m && keep(m[k]) && k !in todo
      invariant forall k :: k in m && keep(m[k]) && k !in todo ==> k in r
      invariant SortedBy(r, keyRank)
      decreases todo
    {
      var k :| k in todo;
      if keep(m[k]) {
        r := InsertByRank(r, k, keyRank);
      }
      todo := todo - {k};
    }
    assert forall i :: 0 <= i < |r| ==> keyRank(r[i]) == rank(m[r[i]]);
  }

  /** The first `n` elements, or all of them when there are fewer. */
  function Take<K>(s: seq<K>, n: nat): (r: seq<K>)
    ensures |r| == if |s| < n then |s| else n
    ensures r == s[..|r|]
  {
    if |s| <= n then s else s[..n]
  }
}

=== FILE: route_guard.dfy ===
/** The request guard of src/middleware.ts: which requests are evaluated at all
    (the matcher), and for those, whether the request passes or is redirected.
    Session lookup and the user-row query are inputs. */
module RouteGuard {
  import opened Wrappers
  import opened Rows
  import opened Text

  const SignInPath: string := "/sign-in"
  const SignUpPath: string := "/sign-up"
  const SubscribePath: string := "/subscribe"
  const HomePath: string := "/"
  const AdminPrefix: string := "/admin"

  /** Paths that need no session; matched by prefix. */
  const UnprotectedPaths: seq<string> := [SignInPath, SignUpPath, SubscribePath]

  /** Alternatives of the matcher's negative look-ahead; `.` matches any character. */
  const ExcludedPatterns: seq<string> := ["_next/static", "_next/image", "favicon.ico", "locales", "sw.js"]

  datatype Decision = Pass | Redirect(target: string)

  /** The two columns the guard selects from the signed-in user's row. */
  datatype GuardRow = GuardRow(subscriptionStatus: Option<string>, role: Option<string>)

  /** `unprotectedPaths.some(p => pathname.startsWith(p))` */
  predicate Unprotected(path: string) {
    exists i :: 0 <= i < |UnprotectedPaths| && StartsWith(path, UnprotectedPaths[i])
  }

  predicate AuthForm(path: string) {
    StartsWith(path, SignInPath) || StartsWith(path, SignUpPath)
  }

  /** `s` begins with text matching `pattern`, where `.` stands for any character. */
  predicate PatternPrefix(s: string, pattern: string) {
    && |pattern| <= |s|
    && forall i :: 0 <= i < |pattern| ==> pattern[i] == '.' || pattern[i] == s[i]
  }

  /** The matcher `/((?!_next/static|_next/image|favicon.ico|locales|sw.js).*)`:
      a path is evaluated iff it is `/` followed by text that begins with none of
      the excluded alternatives. */
  predicate Evaluated(path: string) {
    && 1 <= |path| && path[0] == '/'
    && forall i :: 0 <= i < |ExcludedPatterns| ==> !PatternPrefix(path[1..], ExcludedPatterns[i])
  }

  /** How the guard's fixed paths classify themselves. */
  lemma FixedPathFacts()
    ensures Unprotected(SignInPath) && Unprotected(SignUpPath) && Unprotected(SubscribePath)
    ensures AuthForm(SignInPath) && !AuthForm(HomePath) && !AuthForm(SubscribePath)
    ensures !Unprotected(HomePath)
    ensures !StartsWith(HomePath, AdminPrefix) && !StartsWith(SubscribePath, AdminPrefix)
    ensures !StartsWith(SignInPath, AdminPrefix)
  {
    assert StartsWith(SignInPath, UnprotectedPaths[0]);
    assert StartsWith(SignUpPath, UnprotectedPaths[1]);
    assert StartsWith(SubscribePath, UnprotectedPaths[2]);
    assert SubscribePath[..|SignInPath|][2] != SignInPath[2];
    assert SubscribePath[..|SignUpPath|][2] != SignUpPath[2];
    assert SubscribePath[..|AdminPrefix|][1] != AdminPrefix[1];
    assert SignInPath[..|AdminPrefix|][1] != AdminPrefix[1];
  }

  /** The decision of lines 57-84 once the session and the user row are known.
      A redirect never targets the path it came from, and only three targets exist. */
  function Decide(hasSession: bool, path: string, row: Option<GuardRow>): (d: Decision)
    ensures d.Redirect? ==> d.target != path
    ensures d.Redirect? ==> d.target == SignInPath || d.target == HomePath || d.target == SubscribePath
    ensures !hasSession ==> d == Pass || d == Redirect(SignInPath)
    ensures hasSession ==> d != Redirect(SignInPath)
    ensures row.None? && !AuthForm(path) ==> d.Pass? || d == Redirect(SignInPath)
  {
    FixedPathFacts();
    if !hasSession && !Unprotected(path) then
      Redirect(SignInPath)
    else if hasSession && AuthForm(path) then
      Redirect(HomePath)
    else if hasSession && row.Some? && row.value.subscriptionStatus != Some(Active) && path != SubscribePath then
      Redirect(SubscribePath)
    else if hasSession && row.Some? && row.value.role != Some(AdminRole) && StartsWith(path, AdminPrefix) then
      Redirect(HomePath)
    else
      Pass
  }

  /** The row the guard's query returns: none when the read fails or no row has
      the session's user id. */
  function GuardRowFor(s: Store, userId: Id, readFails: bool): (r: Option<GuardRow>)
    ensures r.Some? <==> !readFails && userId in s.users
    ensures r.Some? ==> r.value.role == s.users[userId].role
    ensures r.Some? ==> r.value.subscriptionStatus == s.users[userId].subscriptionStatus
  {
    if readFails || userId !in s.users then None
    else Some(GuardRow(s.users[userId].subscriptionStatus, s.users[userId].role))
  }

  /** The whole middleware for a request on `path` whose session belongs to
      `session` (when there is one). Paths the matcher excludes pass untouched. */
  function Middleware(s: Store, session: Option<Id>, path: string, readFails: bool): (d: Decision)
    ensures !Evaluated(path) ==> d == Pass
    ensures Evaluated(path) && session.None? ==> (d == Pass <==> Unprotected(path))
    // The guard fails open: an unreadable user row lets a signed-in request
    // through everywhere except the two auth forms.
    ensures Evaluated(path) && session.Some? && readFails ==> (d == Pass <==> !AuthForm(path))
  {
    if !Evaluated(path) then Pass
    else if session.None? then Decide(false, path, None)
    else Decide(true, path, GuardRowFor(s, session.value, readFails))
  }
}

/** Properties of the guard, each relating `Decide` or `Middleware` to an
    independent statement of the access policy. */
module RouteGuardProperties {
  import opened Wrappers
  import opened Rows
  import opened Text
  import opened RouteGuard

  /** The access policy the guard enforces, stated as what a request must
      satisfy to reach its page. */
  predicate Permitted(hasSession: bool, path: string, row: Option<GuardRow>) {
    && (!hasSession ==> Unprotected(path))
    && (hasSession ==> !AuthForm(path))
    && (hasSession && row.Some? ==> row.value.subscriptionStatus == Some(Active) || path == SubscribePath)
    && (hasSession && row.Some? ==> row.value.role == Some(AdminRole) || !StartsWith(path, AdminPrefix))
  }

  /** A request passes iff the policy permits it. */
  lemma PassIffPermitted(hasSession: bool, path: string, row: Option<GuardRow>)
    ensures Decide(hasSession, path, row) == Pass <==> Permitted(hasSession, path, row)
  {
  }

  /** Without a session every path outside the three prefixes goes to sign-in,
      and every path under them passes. */
  lemma NoSessionRule(path: string, row: Option<GuardRow>)
    ensures !Unprotected(path) ==> Decide(false, path, row) == Redirect(SignInPath)
    ensures Unprotected(path) ==> Decide(false, path, row) == Pass
  {
  }

  /** The match is by prefix: a page below `/subscribe` passes without a session. */
  lemma SubscribeSubpathIsUnprotected(row: Option<GuardRow>)
    ensures Decide(false, "/subscribe/plans", row) == Pass
  {
    assert StartsWith("/subscribe/plans", UnprotectedPaths[2]);
  }

  /** A signed-in visitor on the sign-in or sign-up pages is sent home. */
  lemma SignedInAuthFormGoesHome(path: string, row: Option<GuardRow>)
    requires AuthForm(path)
    ensures Decide(true, path, row) == Redirect(HomePath)
  {
  }

  /** A row whose subscription is not exactly `active` (null included) sends
      every other page to `/subscribe`. */
  lemma InactiveGoesToSubscribe(path: string, status: Option<string>, role: Option<string>)
    requires status != Some(Active) && path != SubscribePath && !AuthForm(path)
    ensures Decide(true, path, Some(GuardRow(status, role))) == Redirect(SubscribePath)
  {
  }

  /** The subscription rule comes first: an inactive non-admin on an admin page
      goes to `/subscribe`, not home. */
  lemma SubscriptionCheckedBeforeRole()
    ensures Decide(true, "/admin/users", Some(GuardRow(Some("inactive"), Some(SubscriberRole)))) == Redirect(SubscribePath)
  {
    assert "/admin/users" != SubscribePath by {
      assert "/admin/users"[1] != SubscribePath[1];
    }
    assert !AuthForm("/admin/users") by {
      assert "/admin/users"[..|SignInPath|][1] != SignInPath[1];
      assert "/admin/users"[..|SignUpPath|][1] != SignUpPath[1];
    }
  }

  /** An active row without the admin role is sent home from every admin page. */
  lemma NonAdminLeavesAdmin(path: string, role: Option<string>)
    requires StartsWith(path, AdminPrefix) && role != Some(AdminRole)
    ensures Decide(true, path, Some(GuardRow(Some(Active), role))) == Redirect(HomePath)
  {
    assert path[1] == 'a' by { assert path[..|AdminPrefix|][1] == AdminPrefix[1]; }
    assert !AuthForm(path) by {
      assert |SignInPath| <= |path| ==> path[..|SignInPath|][1] == 'a';
      assert |SignUpPath| <= |path| ==> path[..|SignUpPath|][1] == 'a';
    }
  }

  /** A session whose user row is missing (or could not be read) meets neither
      the subscription nor the role rule: the request passes unchanged. */
  lemma MissingRowPasses(path: string)
    requires !AuthForm(path)
    ensures Decide(true, path, None) == Pass
  {
  }

  /** The three redirect targets are themselves evaluated by the matcher. */
  lemma TargetsEvaluated()
    ensures Evaluated(HomePath) && Evaluated(SignInPath) && Evaluated(SubscribePath)
  {
    forall i | 0 <= i < |ExcludedPatterns| ensures !PatternPrefix(SignInPath[1..], ExcludedPatterns[i]) {
      var p := ExcludedPatterns[i];
      if |p| <= |SignInPath[1..]| {
        assert i == 0 || i == 1 || i == 3 || i == 4;
        if i == 4 { assert p[1] != SignInPath[1..][1]; }
        else { assert p[0] != SignInPath[1..][0]; }
      }
    }
    forall i | 0 <= i < |ExcludedPatterns| ensures !PatternPrefix(SubscribePath[1..], ExcludedPatterns[i]) {
      var p := ExcludedPatterns[i];
      if |p| <= |SubscribePath[1..]| {
        if i == 4 { assert p[1] != SubscribePath[1..][1]; }
        else { assert p[0] != SubscribePath[1..][0]; }
      }
    }
  }

  /** No redirect loop: following the guard's redirects, with the same session
      and user row, reaches a page that passes after at most two redirects. */
  lemma {:induction false} RedirectsSettle(s: Store, session: Option<Id>, path: string, readFails: bool)
    ensures
      var d1 := Middleware(s, session, path, readFails);
      d1.Redirect? ==>
        var d2 := Middleware(s, session, d1.target, readFails);
        d2.Pass? || Middleware(s, session, d2.target, readFails).Pass?
  {
    TargetsEvaluated();
    FixedPathFacts();
  }

  /** Static assets, image optimisation, the favicon, locale files and the
      service worker are never evaluated, so they pass without a session. The
      `.` in `favicon.ico` and `sw.js` is a regular-expression wildcard. */
  lemma ExcludedPathsSkipGuard(s: Store)
    ensures Middleware(s, None, "/_next/static/chunk.js", false) == Pass
    ensures Middleware(s, None, "/_next/image", false) == Pass
    ensures Middleware(s, None, "/favicon.ico", false) == Pass
    ensures Middleware(s, None, "/faviconXico", false) == Pass
    ensures Middleware(s, None, "/locales/en/common.json", false) == Pass
    ensures Middleware(s, None, "/sw.js", false) == Pass
  {
    assert PatternPrefix("/_next/static/chunk.js"[1..], ExcludedPatterns[0]);
    assert PatternPrefix("/_next/image"[1..], ExcludedPatterns[1]);
    assert PatternPrefix("/favicon.ico"[1..], ExcludedPatterns[2]);
    assert PatternPrefix("/faviconXico"[1..], ExcludedPatterns[2]);
    assert PatternPrefix("/locales/en/common.json"[1..], ExcludedPatterns[3]);
    assert PatternPrefix("/sw.js"[1..], ExcludedPatterns[4]);
  }

  /** Worked cases of the guard on a concrete store. */
  lemma GuardExamples(s: Store, uid: Id)
    requires uid in s.users
    ensures Middleware(s, None, "/", false) == Redirect(SignInPath)
    ensures Middleware(s, None, "/subscribe", false) == Pass
    ensures s.users[uid].subscriptionStatus == Some("inactive") ==>
      Middleware(s, Some(uid), "/", false) == Redirect(SubscribePath)
    ensures s.users[uid].subscriptionStatus == Some(Active) && s.users[uid].role == Some(AdminRole) ==>
      Middleware(s, Some(uid), "/admin/users", false) == Pass
    ensures s.users[uid].subscriptionStatus == Some(Active) && s.users[uid].role == Some(SubscriberRole) ==>
      Middleware(s, Some(uid), "/admin/users", false) == Redirect(HomePath)
  {
    TargetsEvaluated();
    FixedPathFacts();
    var p := "/admin/users";
    assert Evaluated(p) by {
      forall i | 0 <= i < |ExcludedPatterns| ensures !PatternPrefix(p[1..], ExcludedPatterns[i]) {
        assert ExcludedPatterns[i][0] != p[1..][0];
      }
    }
    assert StartsWith(p, AdminPrefix);
    assert !AuthForm(p) by {
      assert p[..|SignInPath|][1] != SignInPath[1];
      assert p[..|SignUpPath|][1] != SignUpPath[1];
    }
    assert p != SubscribePath by { assert p[1] != SubscribePath[1]; }
  }
}

=== FILE: rows.dfy ===
/** Row shapes of the hosted store (the `Row` types of `programs`, `approvals`,
    `schedules`, `users` and `audit_logs`) and the store itself as an immutable
    value. Nullable columns are `Option`s; timestamps are instants. */
module Rows {
  import opened Wrappers

  /** Row ids are the store's uuid text. */
  type Id = string

  /** An instant in milliseconds since the epoch (the store keeps ISO-8601 text). */
  type Instant = int

  const MillisPerMinute: int := 60_000

  // Values of `approval_status` (programs) and `status` (approvals).
  const Pending: string := "pending"
  const Approved: string := "approved"
  const Rejected: string := "rejected"

  // Values of `approval_level`.
  const ExecutiveProducer: string := "executive_producer"
  const ChurchLeadership: string := "church_leadership"

  // Values of `role` and `subscription_status`.
  const AdminRole: string := "admin"
  const SubscriberRole: string := "subscriber"
  const Active: string := "active"

  /** The select value that switches a listing filter off. */
  const All: string := "all"

  /** The store's `Json` column type. */
  datatype Json =
    | JNull
    | JBool(b: bool)
    | JNum(n: int)
    | JStr(s: string)
    | JArr(items: seq<Json>)
    | JObj(fields: seq<(string, Json)>)
  {
    /** JavaScript falsiness of the value (`null`, `false`, `0`, `""`). */
    predicate Falsy() {
      JNull? || this == JBool(false) || this == JNum(0) || this == JStr("")
    }
  }

  datatype Program = Program(
    id: Id,
    title: string,
    description: Option<string>,
    duration: Option<int>,
    thumbnailUrl: Option<string>,
    videoId: Option<string>,
    language: Option<string>,
    genre: Option<string>,
    targetDemographic: Option<string>,
    episodeNumber: Option<int>,
    seasonNumber: Option<int>,
    seriesId: Option<Id>,
    productionDate: Option<string>,
    approvalStatus: Option<string>,
    approvalNotes: Option<string>,
    createdAt: Instant)

  datatype Approval = Approval(
    id: Id,
    contentId: Id,
    contentType: string,
    approverId: Option<Id>,
    approvalLevel: Option<string>,
    status: Option<string>,
    comments: Option<string>,
    createdAt: Instant)

  datatype Schedule = Schedule(
    id: Id,
    programId: Id,
    startTime: Instant,
    endTime: Instant,
    channel: Option<string>,
    createdBy: Option<Id>,
    programmingBlock: Option<string>,
    createdAt: Instant)

  datatype UserRow = UserRow(
    id: Id,
    email: string,
    subscriptionStatus: Option<string>,
    languagePreference: Option<string>,
    role: Option<string>,
    viewingPreferences: Option<Json>,
    notificationSettings: Option<Json>,
    createdAt: Instant)

  datatype AuditLog = AuditLog(
    action: string,
    resourceType: string,
    resourceId: Option<Id>,
    userId: Option<Id>,
    details: Option<Json>,
    createdAt: Instant)

  /** The hosted store: one map per table, keyed by row id, and the append-only
      audit log in insertion order. */
  datatype Store = Store(
    programs: map<Id, Program>,
    approvals: map<Id, Approval>,
    schedules: map<Id, Schedule>,
    users: map<Id, UserRow>,
    auditLogs: seq<AuditLog>)

  /** Every row is filed under its own id. */
  ghost predicate KeysMatchIds(s: Store) {
    && (forall k :: k in s.programs ==> s.programs[k].id == k)
    && (forall k :: k in s.approvals ==> s.approvals[k].id == k)
    && (forall k :: k in s.schedules ==> s.schedules[k].id == k)
    && (forall k :: k in s.users ==> s.users[k].id == k)
  }

  /** The user the session belongs to, as the admin shell keeps it. */
  datatype SessionUser = SessionUser(
    id: Id,
    email: string,
    role: Option<string>,
    subscriptionStatus: Option<string>,
    languagePreference: Option<string>)
}

=== FILE: schedule.dfy ===
/** The scheduling page (src/app/admin/schedule/page.tsx): the end-time
    computation, the conflict check, the write gate that trusts the last
    stored conflict list, and the approved-only program list. */
module Scheduling {
  import opened Wrappers
  import opened Rows
  import Listing
  import StoreOps

  /** The form: selected program id (empty when none), the chosen day (as the
      instant of its midnight), the `HH:MM` start as minutes of that day, the
      duration in minutes and the channel. */
  datatype ScheduleForm = ScheduleForm(
    program: Id,
    startDate: Option<Instant>,
    startMinute: int,
    duration: int,
    channel: string)

  const MainChannel: string := "main"
  const UnknownProgram: string := "Unknown Program"

  /** The form the page resets to on `today`: no program, 12:00, 60 minutes, main. */
  function ResetForm(today: Instant): ScheduleForm {
    ScheduleForm("", Some(today), 12 * 60, 60, MainChannel)
  }

  /** Both the check and the write need a day and a program. */
  predicate Complete(form: ScheduleForm) {
    form.startDate.Some? && form.program != ""
  }

  function StartOf(form: ScheduleForm): Instant
    requires form.startDate.Some?
  {
    form.startDate.value + form.startMinute * MillisPerMinute
  }

  /** End = start + duration minutes. */
  function EndOf(form: ScheduleForm): (e: Instant)
    requires form.startDate.Some?
    ensures e - StartOf(form) == form.duration * MillisPerMinute
    ensures form.duration > 0 ==> StartOf(form) < e
  {
    StartOf(form) + form.duration * MillisPerMinute
  }

  /** The query's filter: same channel, existing start before the new end, and
      existing end after the new start (a strict half-open overlap). */
  predicate Conflicts(existing: Schedule, start: Instant, end: Instant, channel: string) {
    existing.channel == Some(channel) && existing.startTime < end && existing.endTime > start
  }

  /** The ids the conflict query returns for a complete form. */
  function ConflictIds(s: Store, form: ScheduleForm): set<Id>
    requires form.startDate.Some?
  {
    set k | k in s.schedules && Conflicts(s.schedules[k], StartOf(form), EndOf(form), form.channel)
  }

  datatype ConflictSummary = ConflictSummary(id: Id, programTitle: string, startTime: Instant, endTime: Instant)

  /** The title shown for a conflicting row: its program's title, or
      `Unknown Program` when the program is missing or its title is empty. */
  function TitleOf(s: Store, programId: Id): (t: string)
    ensures t != ""
    ensures programId in s.programs && s.programs[programId].title != "" ==> t == s.programs[programId].title
    ensures !(programId in s.programs && s.programs[programId].title != "") ==> t == UnknownProgram
  {
    if programId in s.programs && s.programs[programId].title != "" then s.programs[programId].title
    else UnknownProgram
  }

  function Summary(s: Store, id: Id): ConflictSummary
    requires id in s.schedules
  {
    var row := s.schedules[id];
    ConflictSummary(id, TitleOf(s, row.programId), row.startTime, row.endTime)
  }

  /** `checkConflicts`: without a day or a program, and on a query error, the
      stored list stays as it was; otherwise it becomes one summary per
      conflicting row (the query names no order). */
  method CheckConflicts(s: Store, form: ScheduleForm, previous: seq<ConflictSummary>, queryFails: bool)
    returns (conflicts: seq<ConflictSummary>)
    ensures !Complete(form) || queryFails ==> conflicts == previous
    ensures Complete(form) && !queryFails ==>
      && (forall c :: c in conflicts ==> c.id in ConflictIds(s, form) && c == Summary(s, c.id))
      && (forall k :: k in ConflictIds(s, form) ==> Summary(s, k) in conflicts)
      && |conflicts| == |ConflictIds(s, form)|
  {
    if !Complete(form) || queryFails {
      return previous;
    }
    var start, end := StartOf(form), EndOf(form);
    var ids := Listing.SelectSorted(s.schedules, (x: Schedule) => Conflicts(x, start, end, form.channel),
                                    (x: Schedule) => x.startTime);
    conflicts := seq(|ids|, i requires 0 <= i < |ids| && ids[i] in s.schedules => Summary(s, ids[i]));
    forall k | k in ConflictIds(s, form) ensures Summary(s, k) in conflicts {
      var i :| 0 <= i < |ids| && ids[i] == k;
      assert conflicts[i] == Summary(s, k);
    }
    DistinctCount(ids, ConflictIds(s, form));
  }

  /** A sequence without repeats has as many elements as the set it enumerates. */
  lemma {:induction false} DistinctCount(ids: seq<Id>, all: set<Id>)
    requires Listing.Distinct(ids)
    requires forall k :: k in ids <==> k in all
    ensures |ids| == |all|
    decreases |ids|
  {
    if ids != [] {
      var last := ids[|ids| - 1];
      var init := ids[..|ids| - 1];
      assert forall k :: k in init <==> k in all - {last} by {
        forall k ensures k in init <==> k in all - {last} {
          if k in init {
            var i :| 0 <= i < |init| && init[i] == k;
            assert ids[i] == k && i != |ids| - 1;
          }
          if k in all - {last} {
            var i :| 0 <= i < |ids| && ids[i] == k;
            assert i != |ids| - 1;
            assert init[i] == k;
          }
        }
      }
      DistinctCount(init, all - {last});
    } else {
      assert forall k :: k !in all;
      assert all == {};
    }
  }

  datatype Outcome = MissingInformation | ConflictsPending | ScheduleFailed(message: string) | Scheduled(id: Id)

  /** The page after `handleSchedule`: store, form and stored conflict list. */
  datatype ScheduleResult = ScheduleResult(
    store: Store, form: ScheduleForm, conflicts: seq<ConflictSummary>, outcome: Outcome)

  const ForeignKeyViolation: string := "insert violates foreign key constraint"

  /** The inserted row: program, start, end and channel; `created_by` unset. */
  function NewSchedule(form: ScheduleForm, id: Id, now: Instant): Schedule
    requires form.startDate.Some?
  {
    Schedule(id, form.program, StartOf(form), EndOf(form), Some(form.channel), None, None, now)
  }

  /** `handleSchedule`: refuses an incomplete form and a non-empty stored
      conflict list without querying anything; otherwise inserts the row
      (the store refuses an unknown program or a taken id), and on success
      resets the form and clears the list. */
  function HandleSchedule(s: Store, form: ScheduleForm, conflicts: seq<ConflictSummary>,
                          insertFault: Option<string>, freshId: Id, now: Instant, today: Instant): (r: ScheduleResult)
    ensures !Complete(form) ==> r == ScheduleResult(s, form, conflicts, MissingInformation)
    ensures Complete(form) && |conflicts| > 0 ==> r == ScheduleResult(s, form, conflicts, ConflictsPending)
    ensures !r.outcome.Scheduled? ==> r.store == s && r.form == form && r.conflicts == conflicts
    ensures r.outcome.Scheduled? <==>
      Complete(form) && conflicts == [] && insertFault.None? && freshId !in s.schedules && form.program in s.programs
    ensures r.outcome.Scheduled? ==>
      && r.outcome.id == freshId
      && r.store == s.(schedules := s.schedules[freshId := NewSchedule(form, freshId, now)])
      && r.store.schedules[freshId].programId == form.program
      && r.store.schedules[freshId].channel == Some(form.channel)
      && r.store.schedules[freshId].startTime == form.startDate.value + form.startMinute * MillisPerMinute
      && r.store.schedules[freshId].endTime == r.store.schedules[freshId].startTime + form.duration * MillisPerMinute
      && r.store.schedules[freshId].createdBy.None?
      && r.form == ResetForm(today) && r.conflicts == []
  {
    if !Complete(form) then ScheduleResult(s, form, conflicts, MissingInformation)
    else if |conflicts| > 0 then ScheduleResult(s, form, conflicts, ConflictsPending)
    else if insertFault.Some? then ScheduleResult(s, form, conflicts, ScheduleFailed(insertFault.value))
    else if freshId in s.schedules then ScheduleResult(s, form, conflicts, ScheduleFailed(StoreOps.DuplicateKey))
    else if form.program !in s.programs then ScheduleResult(s, form, conflicts, ScheduleFailed(ForeignKeyViolation))
    else
      ScheduleResult(s.(schedules := s.schedules[freshId := NewSchedule(form, freshId, now)]),
                     ResetForm(today), [], Scheduled(freshId))
  }

  /** `fetchPrograms` of this page: only approved programs can be scheduled.
      On a read error the page keeps `previous`. */
  method FetchSchedulablePrograms(s: Store, readFails: bool, previous: seq<Id>) returns (ids: seq<Id>)
    ensures readFails ==> ids == previous
    ensures !readFails ==> Listing.Distinct(ids)
    ensures !readFails ==> forall k :: k in ids <==> k in s.programs && s.programs[k].approvalStatus == Some(Approved)
  {
    if readFails {
      return previous;
    }
    ids := Listing.SelectSorted(s.programs, (p: Program) => p.approvalStatus == Some(Approved), (p: Program) => 0);
  }
}

/** What the conflict predicate and the write gate do, and do not, guarantee. */
module SchedulingProperties {
  import opened Wrappers
  import opened Rows
  import opened Scheduling

  /** Two rows on the same channel whose half-open intervals overlap. */
  predicate Clash(x: Schedule, y: Schedule) {
    x.channel.Some? && x.channel == y.channel && x.startTime < y.endTime && y.startTime < x.endTime
  }

  /** No two distinct rows of one channel overlap. */
  ghost predicate NoOverlaps(s: Store) {
    forall a, b :: a in s.schedules && b in s.schedules && a != b ==> !Clash(s.schedules[a], s.schedules[b])
  }

  /** The check's predicate is half-open overlap on one channel, symmetric in
      its two rows; back-to-back rows and rows on other channels never conflict. */
  lemma ConflictIsOverlap(x: Schedule, y: Schedule, channel: string)
    requires y.channel == Some(channel)
    ensures Conflicts(x, y.startTime, y.endTime, channel) <==> Clash(x, y)
    ensures Clash(x, y) <==> Clash(y, x)
    ensures x.endTime == y.startTime || y.endTime == x.startTime ==> !Clash(x, y)
    ensures x.channel != y.channel ==> !Conflicts(x, y.startTime, y.endTime, channel)
  {
  }

  /** A zero-length slot strictly inside an existing row does conflict: the
      predicate only spares intervals that touch at an end point. */
  lemma ZeroLengthInsideConflicts(x: Schedule, t: Instant, channel: string)
    requires x.channel == Some(channel) && x.startTime < t < x.endTime
    ensures Conflicts(x, t, t, channel)
  {
  }

  /** When the stored list is exactly what a check on this store and this form
      returned, a successful write keeps the channel free of overlaps. */
  lemma FreshCheckPreservesNoOverlaps(s: Store, form: ScheduleForm, conflicts: seq<ConflictSummary>,
                                      fault: Option<string>, freshId: Id, now: Instant, today: Instant)
    requires NoOverlaps(s) && Complete(form)
    requires forall k :: k in ConflictIds(s, form) ==> exists c :: c in conflicts && c.id == k
    ensures NoOverlaps(HandleSchedule(s, form, conflicts, fault, freshId, now, today).store)
  {
    var r := HandleSchedule(s, form, conflicts, fault, freshId, now, today);
    if r.outcome.Scheduled? {
      var x := NewSchedule(form, freshId, now);
      forall k | k in s.schedules ensures !Clash(s.schedules[k], x) && !Clash(x, s.schedules[k]) {
        assert k !in ConflictIds(s, form);
      }
    }
  }

  /** The gate trusts the stored list and never re-queries: with no check run
      (an empty list) a write overlapping an existing row goes through, so
      "no overlaps" is not an invariant of the page even run sequentially. */
  lemma StaleListAdmitsOverlap(program: Program, existing: Schedule, freshId: Id, now: Instant, today: Instant)
    requires existing.id != freshId && program.id != ""
    requires existing.channel == Some(MainChannel) && existing.startTime == 0 && existing.endTime == 60 * MillisPerMinute
    ensures
      var s := Store(map[program.id := program], map[], map[existing.id := existing], map[], []);
      var form := ScheduleForm(program.id, Some(0), 30, 60, MainChannel);
      var r := HandleSchedule(s, form, [], None, freshId, now, today);
      && NoOverlaps(s)
      && existing.id in ConflictIds(s, form)
      && r.outcome == Scheduled(freshId)
      && Clash(r.store.schedules[existing.id], r.store.schedules[freshId])
      && !NoOverlaps(r.store)
  {
  }

  /** A check run before the form changed is just as stale: checked at 01:30,
      the list is empty; with the start then moved to 00:30 on the same main
      channel, the write lands on top of the existing row. */
  lemma ChangedFormAdmitsOverlap(program: Program, existing: Schedule, freshId: Id, now: Instant, today: Instant)
    requires existing.id != freshId && program.id != ""
    requires existing.channel == Some(MainChannel) && existing.startTime == 0 && existing.endTime == 60 * MillisPerMinute
    ensures
      var s := Store(map[program.id := program], map[], map[existing.id := existing], map[], []);
      var checked := ScheduleForm(program.id, Some(0), 90, 60, MainChannel);
      var written := checked.(startMinute := 30);
      var r := HandleSchedule(s, written, [], None, freshId, now, today);
      && ConflictIds(s, checked) == {}
      && r.outcome == Scheduled(freshId)
      && !NoOverlaps(r.store)
  {
    var s := Store(map[program.id := program], map[], map[existing.id := existing], map[], []);
    var checked := ScheduleForm(program.id, Some(0), 90, 60, MainChannel);
    assert ConflictIds(s, checked) == {} by {
      forall k | k in s.schedules ensures !Conflicts(s.schedules[k], StartOf(checked), EndOf(checked), checked.channel) {
        assert k == existing.id;
      }
    }
    var r := HandleSchedule(s, checked.(startMinute := 30), [], None, freshId, now, today);
    assert Clash(r.store.schedules[existing.id], r.store.schedules[freshId]);
  }

  /** A worked case: A is 10:00-11:00 on main. B (10:30-11:30, main)
      conflicts with it; C (11:00-12:00, main) and D (10:30-11:30, secondary)
      do not. */
  lemma OverlapScenario(a: Schedule)
    requires a.channel == Some(MainChannel)
    requires a.startTime == 600 * MillisPerMinute && a.endTime == 660 * MillisPerMinute
    ensures
      var s := Store(map[], map[], map[a.id := a], map[], []);
      && ConflictIds(s, ScheduleForm("p", Some(0), 630, 60, MainChannel)) == {a.id}
      && ConflictIds(s, ScheduleForm("p", Some(0), 660, 60, MainChannel)) == {}
      && ConflictIds(s, ScheduleForm("p", Some(0), 630, 60, "secondary")) == {}
  {
    var s := Store(map[], map[], map[a.id := a], map[], []);
    assert s.schedules.Keys == {a.id};
  }
}

=== FILE: search.dfy ===
/** The programme search on the home page (`handleSearch` in src/app/page.tsx).
    The query carries no order, so the results are a set of program ids. */
module Search {
  import opened Rows
  import opened Text

  /** Terms of this many UTF-16 code units or fewer are not sent to the store. */
  const MinQueryLength: nat := 2

  /** What the page shows: the text in the box and the results under it. */
  datatype SearchState = SearchState(term: string, results: set<Id>)

  /** Every program whose title contains `term`, whatever its approval status. */
  function Matching(s: Store, term: string): (ids: set<Id>)
    ensures forall k :: k in ids <==> k in s.programs && ContainsIgnoringCase(s.programs[k].title, term)
  {
    set k | k in s.programs && ContainsIgnoringCase(s.programs[k].title, term)
  }

  /** One change event of the search box with value `input`. */
  function HandleSearch(st: SearchState, s: Store, input: string, readFails: bool): (st': SearchState)
    ensures st'.term == input
    ensures Utf16Length(input) <= MinQueryLength ==> st'.results == {}
    ensures Utf16Length(input) > MinQueryLength && readFails ==> st'.results == st.results
    ensures Utf16Length(input) > MinQueryLength && !readFails ==>
      forall k :: k in st'.results <==> k in s.programs && ContainsIgnoringCase(s.programs[k].title, input)
  {
    if Utf16Length(input) > MinQueryLength then
      if readFails then st.(term := input) else SearchState(input, Matching(s, input))
    else SearchState(input, {})
  }
}

/** How the search results behave across keystrokes. */
module SearchProperties {
  import opened Wrappers
  import opened Rows
  import opened Text
  import opened Search

  /** Substring containment, up to ASCII case, is transitive. */
  lemma {:induction false} ContainsTransitive(a: string, b: string, c: string)
    requires Contains(a, b) && Contains(b, c)
    ensures Contains(a, c)
  {
    var i :| 0 <= i <= |a| - |b| && OccursAt(a, b, i);
    var j :| 0 <= j <= |b| - |c| && OccursAt(b, c, j);
    forall n | 0 <= n < |c|
      ensures a[i + j..i + j + |c|][n] == c[n]
    {
      assert a[i + j + n] == a[i..i + |b|][j + n];
      assert b[j + n] == b[j..j + |c|][n];
    }
    assert OccursAt(a, c, i + j);
  }

  /** A term extended by one more character contains the term. */
  lemma {:induction false} ExtensionContainsTerm(t: string, x: char)
    ensures ContainsIgnoringCase(t + [x], t)
  {
    var l, lt := Lower(t + [x]), Lower(t);
    assert l[0..|lt|] == lt;
    assert OccursAt(l, lt, 0);
  }

  /** Typing one more character into a term already long enough to search,
      with both queries answered, never adds a result. */
  lemma {:induction false} TypingNarrowsResults(st: SearchState, s: Store, t: string, x: char)
    requires Utf16Length(t) > MinQueryLength
    ensures var st1 := HandleSearch(st, s, t, false);
            HandleSearch(st1, s, t + [x], false).results <= st1.results
  {
    assert (t + [x])[..|t|] == t;
    var st1 := HandleSearch(st, s, t, false);
    var st2 := HandleSearch(st1, s, t + [x], false);
    forall k | k in st2.results
      ensures k in st1.results
    {
      ExtensionContainsTerm(t, x);
      ContainsTransitive(Lower(s.programs[k].title), Lower(t + [x]), Lower(t));
    }
  }

  /** The search shows programs that the approval workflow has not approved:
      a pending program with a matching title is found. */
  lemma FindsUnapprovedPrograms(st: SearchState, s: Store, k: Id, term: string)
    requires Utf16Length(term) > MinQueryLength
    requires k in s.programs && s.programs[k].approvalStatus == Some(Pending)
    requires s.programs[k].title == term
    ensures k in HandleSearch(st, s, term, false).results
  {
    ContainsIgnoringCaseReflexive(term);
  }

  /** The threshold counts UTF-16 code units, as JavaScript does: a term of two
      characters whose first lies outside the Basic Multilingual Plane is three
      units long and is searched. */
  lemma {:induction false} SurrogatePairCountsTwice(st: SearchState, s: Store)
    ensures Utf16Length("\U{1F600}a") == 3
    ensures HandleSearch(st, s, "\U{1F600}a", false).results == Matching(s, "\U{1F600}a")
  {
    var t := "\U{1F600}a";
    assert t[..1] == "\U{1F600}" && t[..1][..0] == [];
    assert Utf16Length(t[..1]) == 2;
  }

  /** Case never matters to the search: a term matches a title exactly when
      the same term with its letters lowered does. */
  lemma {:induction false} TermCaseIrrelevant(title: string, term: string)
    ensures ContainsIgnoringCase(title, term) <==> ContainsIgnoringCase(title, Lower(term))
  {
    forall i | 0 <= i < |term|
      ensures Lower(Lower(term))[i] == Lower(term)[i]
    {
    }
    assert Lower(Lower(term)) == Lower(term);
  }
}

=== FILE: store_ops.dfy ===
/** Single-table writes of the hosted store, as the handlers issue them. An
    insert whose id is taken fails (primary key); an update filtered by an id
    that no row has changes nothing and is not an error. */
module StoreOps {
  import opened Wrappers
  import opened Rows

  const DuplicateKey: string := "duplicate key value violates unique constraint"

  /** `update({ approval_status }).eq('id', id)` on `programs`. */
  function SetProgramStatus(s: Store, id: Id, status: string): (s': Store)
    ensures s'.approvals == s.approvals && s'.schedules == s.schedules
    ensures s'.users == s.users && s'.auditLogs == s.auditLogs
    ensures s'.programs.Keys == s.programs.Keys
    ensures id in s.programs ==> s'.programs[id] == s.programs[id].(approvalStatus := Some(status))
    ensures forall k :: k in s.programs && k != id ==> s'.programs[k] == s.programs[k]
  {
    if id in s.programs then
      s.(programs := s.programs[id := s.programs[id].(approvalStatus := Some(status))])
    else s
  }

  /** `update({ role }).eq('id', id)` on `users`. */
  function SetUserRole(s: Store, id: Id, role: string): (s': Store)
    ensures s'.programs == s.programs && s'.approvals == s.approvals
    ensures s'.schedules == s.schedules && s'.auditLogs == s.auditLogs
    ensures s'.users.Keys == s.users.Keys
    ensures id in s.users ==> s'.users[id] == s.users[id].(role := Some(role))
    ensures forall k :: k in s.users && k != id ==> s'.users[k] == s.users[k]
  {
    if id in s.users then s.(users := s.users[id := s.users[id].(role := Some(role))]) else s
  }
}

=== FILE: text.dfy ===
/** String predicates used by the route guard and the search filters.
    A Dafny `string` is a sequence of Unicode scalar values, so `|s|` counts
    code points; JavaScript's `length` is given by `Utf16Length`. */
module Text {

  /** UTF-16 code units of one character: two for a character above U+FFFF
      (a surrogate pair), one otherwise. */
  function CodeUnits(c: char): nat {
    if c as int > 0xFFFF then 2 else 1
  }

  /** JavaScript's `s.length`: the number of UTF-16 code units of `s`. */
  function Utf16Length(s: string): (n: nat)
    ensures |s| <= n <= 2 * |s|
    ensures (forall i :: 0 <= i < |s| ==> s[i] as int <= 0xFFFF) ==> n == |s|
    decreases |s|
  {
    if s == [] then 0 else Utf16Length(s[..|s| - 1]) + CodeUnits(s[|s| - 1])
  }

  /** `s.startsWith(prefix)` */
  predicate StartsWith(s: string, prefix: string) {
    |prefix| <= |s| && s[..|prefix|] == prefix
  }

  /** ASCII upper case to lower case; every other character is kept. */
  function LowerChar(c: char): char {
    if 'A' <= c <= 'Z' then (c as int + 32) as char else c
  }

  function Lower(s: string): (r: string)
    ensures |r| == |s|
    ensures forall i :: 0 <= i < |s| ==> r[i] == LowerChar(s[i])
  {
    seq(|s|, i requires 0 <= i < |s| => LowerChar(s[i]))
  }

  /** `part` occurs in `s` starting at index `i`. */
  predicate OccursAt(s: string, part: string, i: int) {
    0 <= i && i + |part| <= |s| && s[i..i + |part|] == part
  }

  /** `part` is a contiguous substring of `s`. */
  predicate Contains(s: string, part: string) {
    exists i :: 0 <= i <= |s| - |part| && OccursAt(s, part, i)
  }

  /** The store's `ilike '%part%'` match, with case folded on ASCII letters. */
  predicate ContainsIgnoringCase(s: string, part: string) {
    Contains(Lower(s), Lower(part))
  }

  /** Every string contains itself, whatever the case of its letters. */
  lemma ContainsIgnoringCaseReflexive(s: string)
    ensures ContainsIgnoringCase(s, s)
  {
    assert OccursAt(Lower(s), Lower(s), 0);
  }

  /** `s.replace(/c/, d)` for a single-character pattern: only the first
      occurrence of `c` becomes `d`; every later one stays. */
  function ReplaceFirst(s: string, c: char, d: char): (r: string)
    ensures |r| == |s|
    ensures c !in s ==> r == s
    ensures forall j :: 0 <= j < |s| && s[j] == c && c !in s[..j] ==> r[j] == d
    ensures forall j :: 0 <= j < |s| && r[j] != s[j] ==> s[j] == c && c !in s[..j]
  {
    if s == [] then []
    else if s[0] == c then [d] + s[1..]
    else
      var rest := ReplaceFirst(s[1..], c, d);
      assert forall j :: 1 <= j < |s| ==> s[..j] == [s[0]] + s[1..][..j - 1];
      [s[0]] + rest
  }
}

=== FILE: upload.dfy ===
/** The upload page (src/app/admin/upload/page.tsx): `handleUpload` validates
    the form, stores the file, creates the pending program and asks the
    executive producer for approval. */
module Upload {
  import opened Wrappers
  import opened Rows
  import opened Audit
  import opened StoreOps

  datatype FileRef = FileRef(name: string, mimeType: string)

  datatype UploadForm = UploadForm(
    title: string,
    description: string,
    genre: string,
    targetDemographic: string,
    language: string,
    episodeNumber: Option<int>,
    seasonNumber: Option<int>,
    file: Option<FileRef>)

  /** The form as the page creates it and resets it after a successful upload. */
  const EmptyForm: UploadForm := UploadForm("", "", "", "", "en", None, None, None)

  /** What the object storage did: the signed-URL request was refused (with or
      without an error text), the PUT came back not ok, or the file was stored. */
  datatype StorageResult = UrlRefused(error: Option<string>) | PutFailed | Stored

  /** The store calls after the file is stored. */
  datatype Step = CreateProgram | LogCreate | CreateApproval

  type Faults = map<Step, string>

  datatype Outcome =
    | MissingInformation
    | NotSignedIn
    | UploadFailed(message: string)
    | Uploaded(programId: Id, approvalCreated: bool)

  datatype UploadResult = UploadResult(store: Store, form: UploadForm, outcome: Outcome)

  /** The program row the insert creates. */
  function NewProgram(form: UploadForm, id: Id, now: Instant): Program {
    Program(id, form.title, Some(form.description), None, None, None, Some(form.language), Some(form.genre),
            Some(form.targetDemographic), form.episodeNumber, form.seasonNumber, None, None,
            Some(Pending), None, now)
  }

  /** The first approval request of a new program. */
  function InitialApproval(programId: Id, id: Id, now: Instant): Approval {
    Approval(id, programId, "program", None, Some(ExecutiveProducer), Some(Pending), None, now)
  }

  /** `handleUpload`. `programId` and `approvalId` are the ids the store gives the
      two inserted rows. */
  function HandleUpload(s: Store, form: UploadForm, actor: Option<SessionUser>, storage: StorageResult,
                        faults: Faults, programId: Id, approvalId: Id, now: Instant): (r: UploadResult)
    // Nothing is written unless the form is complete, a user is signed in and the file is stored.
    ensures form.file.None? || form.title == "" || form.genre == "" ==>
      r == UploadResult(s, form, MissingInformation)
    ensures form.file.Some? && form.title != "" && form.genre != "" && actor.None? ==>
      r == UploadResult(s, form, NotSignedIn)
    ensures !storage.Stored? ==> r.store == s && r.form == form
    ensures r.outcome.UploadFailed? ==> r.store == s && r.form == form
    // A success adds exactly one program, pending, with the form's fields.
    ensures r.outcome.Uploaded? ==>
      && r.outcome.programId == programId && programId !in s.programs
      && r.store.programs == s.programs[programId := NewProgram(form, programId, now)]
      && r.store.programs[programId].approvalStatus == Some(Pending)
      && r.form == EmptyForm
    // ... and at most one approval row, the executive_producer request for it.
    ensures r.outcome.Uploaded? && r.outcome.approvalCreated ==>
      && approvalId !in s.approvals
      && r.store.approvals == s.approvals[approvalId := InitialApproval(programId, approvalId, now)]
    ensures r.outcome.Uploaded? && !r.outcome.approvalCreated ==> r.store.approvals == s.approvals
    ensures r.outcome.Uploaded? <==>
      form.file.Some? && form.title != "" && form.genre != "" && actor.Some? && storage.Stored?
      && CreateProgram !in faults && programId !in s.programs
    ensures r.store.schedules == s.schedules && r.store.users == s.users
    ensures s.auditLogs <= r.store.auditLogs
  {
    if form.file.None? || form.title == "" || form.genre == "" then
      UploadResult(s, form, MissingInformation)
    else if actor.None? then
      UploadResult(s, form, NotSignedIn)
    else if storage.UrlRefused? then
      UploadResult(s, form, UploadFailed(storage.error.GetOr("Failed to generate upload URL")))
    else if storage.PutFailed? then
      UploadResult(s, form, UploadFailed("Failed to upload file to storage"))
    else if CreateProgram in faults then
      UploadResult(s, form, UploadFailed(faults[CreateProgram]))
    else if programId in s.programs then
      UploadResult(s, form, UploadFailed(DuplicateKey))
    else
      var s1 := s.(programs := s.programs[programId := NewProgram(form, programId, now)]);
      var details := Obj([("title", JStr(form.title)), ("genre", JStr(form.genre)),
                          ("target_demographic", JStr(form.targetDemographic)),
                          ("language", JStr(form.language))]
                         + (if form.episodeNumber.Some? then [("episode_number", JNum(form.episodeNumber.value))] else [])
                         + (if form.seasonNumber.Some? then [("season_number", JNum(form.seasonNumber.value))] else []));
      var s2 := LogAdminAction(s1, "CREATE_PROGRAM", "program", actor.value.id, Some(programId), Some(details),
                               LogCreate in faults, now);
      if CreateApproval in faults || approvalId in s2.approvals then
        UploadResult(s2, EmptyForm, Uploaded(programId, false))
      else
        var s3 := s2.(approvals := s2.approvals[approvalId := InitialApproval(programId, approvalId, now)]);
        UploadResult(s3, EmptyForm, Uploaded(programId, true))
  }

  /** A failed approval insert is only warned about: the upload still succeeds
      and leaves a pending program that no approval row refers to. */
  lemma PendingProgramWithoutApproval(s: Store, form: UploadForm, actor: SessionUser,
                                      programId: Id, approvalId: Id, now: Instant)
    requires form.file.Some? && form.title != "" && form.genre != ""
    requires programId !in s.programs
    requires forall k :: k in s.approvals ==> s.approvals[k].contentId != programId
    ensures
      var r := HandleUpload(s, form, Some(actor), Stored, map[CreateApproval := "insert failed"],
                            programId, approvalId, now);
      && r.outcome == Uploaded(programId, false)
      && r.store.programs[programId].approvalStatus == Some(Pending)
      && forall k :: k in r.store.approvals ==> r.store.approvals[k].contentId != programId
  {
  }
}

=== FILE: user_store.dfy ===
/** The client-side user store (src/store/user-store.ts): its initial state and
    its setters, each a pure update of the state record. */
module UserStore {
  import opened Wrappers
  import opened Rows

  datatype State = State(
    user: Option<SessionUser>,
    language: string,
    isAuthenticated: bool,
    subscriptionStatus: string,
    notificationSettings: map<string, bool>)

  const NotificationToggles: set<string> :=
    {"programReminders", "newEpisodes", "scheduleChanges", "specialEvents"}

  /** The state the store is created with. */
  function Initial(): (st: State)
    ensures st.user.None? && !st.isAuthenticated
    ensures st.language == "en" && st.subscriptionStatus == "inactive"
    ensures st.notificationSettings.Keys == NotificationToggles
    ensures forall k :: k in st.notificationSettings ==> st.notificationSettings[k]
  {
    State(None, "en", false, "inactive",
          map["programReminders" := true, "newEpisodes" := true,
              "scheduleChanges" := true, "specialEvents" := true])
  }

  function SetUser(st: State, user: Option<SessionUser>): (r: State)
    ensures r.user == user
    ensures r.language == st.language && r.isAuthenticated == st.isAuthenticated
    ensures r.subscriptionStatus == st.subscriptionStatus && r.notificationSettings == st.notificationSettings
  {
    st.(user := user)
  }

  function SetLanguage(st: State, language: string): (r: State)
    ensures r.language == language
    ensures r.user == st.user && r.isAuthenticated == st.isAuthenticated
    ensures r.subscriptionStatus == st.subscriptionStatus && r.notificationSettings == st.notificationSettings
  {
    st.(language := language)
  }

  function SetIsAuthenticated(st: State, isAuthenticated: bool): (r: State)
    ensures r.isAuthenticated == isAuthenticated
    ensures r.user == st.user && r.language == st.language
    ensures r.subscriptionStatus == st.subscriptionStatus && r.notificationSettings == st.notificationSettings
  {
    st.(isAuthenticated := isAuthenticated)
  }

  function SetSubscriptionStatus(st: State, status: string): (r: State)
    ensures r.subscriptionStatus == status
    ensures r.user == st.user && r.language == st.language
    ensures r.isAuthenticated == st.isAuthenticated && r.notificationSettings == st.notificationSettings
  {
    st.(subscriptionStatus := status)
  }

  /** `{ ...state.notificationSettings, ...settings }`: keys in `settings`
      take its values, every other key keeps its own, none is dropped. */
  function SetNotificationSettings(st: State, settings: map<string, bool>): (r: State)
    ensures r.notificationSettings.Keys == st.notificationSettings.Keys + settings.Keys
    ensures forall k :: k in settings ==> r.notificationSettings[k] == settings[k]
    ensures forall k :: k in st.notificationSettings && k !in settings ==>
      r.notificationSettings[k] == st.notificationSettings[k]
    ensures r.user == st.user && r.language == st.language
    ensures r.isAuthenticated == st.isAuthenticated && r.subscriptionStatus == st.subscriptionStatus
  {
    st.(notificationSettings := st.notificationSettings + settings)
  }

  /** Applying the same settings twice is the same as applying them once. */
  lemma SetNotificationSettingsIdempotent(st: State, settings: map<string, bool>)
    ensures SetNotificationSettings(SetNotificationSettings(st, settings), settings)
         == SetNotificationSettings(st, settings)
  {
  }

  /** The toggle set never shrinks: from any state holding the four toggles,
      whatever settings are merged, the four toggles remain present. */
  lemma {:induction false} TogglesNeverLost(st: State, updates: seq<map<string, bool>>)
    requires NotificationToggles <= st.notificationSettings.Keys
    ensures NotificationToggles <= ApplyAll(st, updates).notificationSettings.Keys
    decreases |updates|
  {
    if updates != [] {
      TogglesNeverLost(SetNotificationSettings(st, updates[0]), updates[1..]);
    }
  }

  /** Successive `setNotificationSettings` calls. */
  function ApplyAll(st: State, updates: seq<map<string, bool>>): State
    decreases |updates|
  {
    if updates == [] then st else ApplyAll(SetNotificationSettings(st, updates[0]), updates[1..])
  }
}

=== FILE: users.dfy ===
/** The user administration page (src/app/admin/users/page.tsx): a filtered
    listing of the `users` table and the two role changes an administrator can
    make from it. The page keeps its own copy of the listed rows and patches it
    after a successful write instead of reading the table again. */
module UserAdmin {
  import opened Wrappers
  import opened Rows
  import opened Text
  import Listing
  import StoreOps

  /** The filter controls. `"all"` switches a select filter off; an empty
      search term switches the e-mail filter off. */
  datatype UserFilter = UserFilter(searchTerm: string, role: string, status: string)

  /** The row passes every filter that is switched on. A row whose role or
      status is null never equals a chosen value. */
  predicate Shown(f: UserFilter, u: UserRow) {
    && (f.searchTerm == "" || ContainsIgnoringCase(u.email, f.searchTerm))
    && (f.role == All || u.role == Some(f.role))
    && (f.status == All || u.subscriptionStatus == Some(f.status))
  }

  /** The listing: every row that passes the filters, newest first. A read
      error leaves the previous listing on the page. */
  method FetchUsers(s: Store, f: UserFilter, readFails: bool, previous: seq<UserRow>) returns (rows: seq<UserRow>)
    requires KeysMatchIds(s)
    ensures readFails ==> rows == previous
    ensures !readFails ==> forall u :: u in rows <==> u in s.users.Values && Shown(f, u)
    ensures !readFails ==> forall i :: 0 <= i < |rows| ==> rows[i].id in s.users && s.users[rows[i].id] == rows[i]
    ensures !readFails ==> forall i, j :: 0 <= i < j < |rows| ==> rows[i].id != rows[j].id
    ensures !readFails ==> forall i, j :: 0 <= i < j < |rows| ==> rows[i].createdAt >= rows[j].createdAt
  {
    if readFails {
      return previous;
    }
    var ids := Listing.SelectSorted(s.users, (u: UserRow) => Shown(f, u), (u: UserRow) => -u.createdAt);
    rows := seq(|ids|, i requires 0 <= i < |ids| => s.users[ids[i]]);
    forall u | u in s.users.Values && Shown(f, u)
      ensures u in rows
    {
      var k :| k in s.users && s.users[k] == u;
      assert k in ids;
      var i :| 0 <= i < |ids| && ids[i] == k;
      assert rows[i] == u;
    }
  }

  /** The local listing mirrors the table: every listed row is the stored row
      with its id. */
  ghost predicate Mirrors(s: Store, rows: seq<UserRow>) {
    forall i :: 0 <= i < |rows| ==> rows[i].id in s.users && s.users[rows[i].id] == rows[i]
  }

  /** The listed rows with `id` given `role`; the others are kept. */
  function PatchRole(rows: seq<UserRow>, id: Id, role: string): (r: seq<UserRow>)
    ensures |r| == |rows|
    ensures forall i :: 0 <= i < |rows| && rows[i].id == id ==> r[i] == rows[i].(role := Some(role))
    ensures forall i :: 0 <= i < |rows| && rows[i].id != id ==> r[i] == rows[i]
  {
    seq(|rows|, i requires 0 <= i < |rows| => if rows[i].id == id then rows[i].(role := Some(role)) else rows[i])
  }

  /** What the page holds after a role change: the table and its listing. */
  datatype Page = Page(store: Store, rows: seq<UserRow>)

  /** `update({ role }).eq('id', userId)` and, when the store reports no
      error, the same change applied to the listing. On an error neither
      changes. */
  function ChangeRole(s: Store, rows: seq<UserRow>, userId: Id, role: string, writeFails: bool): (p: Page)
    ensures writeFails ==> p == Page(s, rows)
    ensures p.store.programs == s.programs && p.store.approvals == s.approvals
    ensures p.store.schedules == s.schedules && p.store.auditLogs == s.auditLogs
    ensures p.store.users.Keys == s.users.Keys
    ensures !writeFails && userId in s.users ==> p.store.users[userId] == s.users[userId].(role := Some(role))
    ensures forall k :: k in s.users && (writeFails || k != userId) ==> p.store.users[k] == s.users[k]
    ensures |p.rows| == |rows|
    ensures forall i :: 0 <= i < |rows| ==> p.rows[i].id == rows[i].id
    ensures !writeFails ==> forall i :: 0 <= i < |rows| && rows[i].id == userId ==> p.rows[i] == rows[i].(role := Some(role))
    ensures forall i :: 0 <= i < |rows| && (writeFails || rows[i].id != userId) ==> p.rows[i] == rows[i]
  {
    if writeFails then Page(s, rows)
    else Page(StoreOps.SetUserRole(s, userId, role), PatchRole(rows, userId, role))
  }

  /** "Make Admin" (`promoteToAdmin`). */
  function Promote(s: Store, rows: seq<UserRow>, userId: Id, writeFails: bool): (p: Page)
    ensures p.store.users.Keys == s.users.Keys
    ensures !writeFails && userId in s.users ==> p.store.users[userId] == s.users[userId].(role := Some(AdminRole))
    ensures forall k :: k in s.users && k != userId ==> p.store.users[k] == s.users[k]
    ensures writeFails ==> p == Page(s, rows)
    ensures |p.rows| == |rows|
    ensures !writeFails ==> forall i :: 0 <= i < |rows| && rows[i].id == userId ==> p.rows[i] == rows[i].(role := Some(AdminRole))
    ensures forall i :: 0 <= i < |rows| && rows[i].id != userId ==> p.rows[i] == rows[i]
  {
    ChangeRole(s, rows, userId, AdminRole, writeFails)
  }

  /** "Make Subscriber" (`demoteFromAdmin`). */
  function Demote(s: Store, rows: seq<UserRow>, userId: Id, writeFails: bool): (p: Page)
    ensures p.store.users.Keys == s.users.Keys
    ensures !writeFails && userId in s.users ==> p.store.users[userId] == s.users[userId].(role := Some(SubscriberRole))
    ensures forall k :: k in s.users && k != userId ==> p.store.users[k] == s.users[k]
    ensures writeFails ==> p == Page(s, rows)
    ensures |p.rows| == |rows|
    ensures !writeFails ==> forall i :: 0 <= i < |rows| && rows[i].id == userId ==> p.rows[i] == rows[i].(role := Some(SubscriberRole))
    ensures forall i :: 0 <= i < |rows| && rows[i].id != userId ==> p.rows[i] == rows[i]
  {
    ChangeRole(s, rows, userId, SubscriberRole, writeFails)
  }

  /** "Make Admin" is rendered only on rows whose role is exactly `subscriber`. */
  predicate MakeAdminOffered(u: UserRow) {
    u.role == Some(SubscriberRole)
  }

  /** "Make Subscriber" is rendered only on rows whose role is exactly `admin`. */
  predicate MakeSubscriberOffered(u: UserRow) {
    u.role == Some(AdminRole)
  }
}

/** Properties of the user administration page across calls. */
module UserAdminProperties {
  import opened Wrappers
  import opened Rows
  import opened UserAdmin

  /** A row offers at most one role button, and a row with no role or any
      other role offers none. */
  lemma AtMostOneButton(u: UserRow)
    ensures !(MakeAdminOffered(u) && MakeSubscriberOffered(u))
    ensures MakeAdminOffered(u) || MakeSubscriberOffered(u) <==>
      u.role.Some? && (u.role.value == SubscriberRole || u.role.value == AdminRole)
  {
    assert AdminRole[0] != SubscriberRole[0];
  }

  /** A role change, successful or not, keeps the listing a faithful copy of
      the table, so the page never shows a role the store does not hold. */
  lemma {:induction false} ChangeRoleKeepsMirror(s: Store, rows: seq<UserRow>, userId: Id, role: string, writeFails: bool)
    requires Mirrors(s, rows)
    ensures Mirrors(ChangeRole(s, rows, userId, role, writeFails).store, ChangeRole(s, rows, userId, role, writeFails).rows)
  {
    var p := ChangeRole(s, rows, userId, role, writeFails);
    forall i | 0 <= i < |p.rows|
      ensures p.rows[i].id in p.store.users && p.store.users[p.rows[i].id] == p.rows[i]
    {
      assert rows[i].id in s.users && s.users[rows[i].id] == rows[i];
      if !writeFails && rows[i].id == userId {
        assert p.store.users[userId] == s.users[userId].(role := Some(role));
      }
    }
  }

  /** Making a subscriber an admin and then a subscriber again, with both
      writes succeeding, restores the table and the listing. */
  lemma PromoteThenDemoteRestores(s: Store, rows: seq<UserRow>, userId: Id)
    requires Mirrors(s, rows)
    requires userId in s.users && s.users[userId].role == Some(SubscriberRole)
    ensures var p := Promote(s, rows, userId, false);
            Demote(p.store, p.rows, userId, false) == Page(s, rows)
  {
    var p := Promote(s, rows, userId, false);
    var q := Demote(p.store, p.rows, userId, false);
    assert q.store.users == s.users;
    assert forall i :: 0 <= i < |rows| && rows[i].id == userId ==> rows[i] == s.users[userId];
    assert q.rows == rows;
  }
}

=== FILE: workflow.dfy ===
/** The two-stage review of a new program, end to end: the upload files an
    executive_producer request, approving it files a church_leadership request,
    and approving that one approves the program. Rejecting at either stage
    rejects the program. Every table call succeeds in these runs; audit
    inserts may fail, since they never change the outcome. */
module ReviewChain {
  import opened Wrappers
  import opened Rows
  import Upload
  import opened ApprovalWorkflow
  import opened ApprovalProperties

  /** A complete form, uploaded by a signed-in user with the file stored. */
  predicate Ready(form: Upload.UploadForm) {
    form.file.Some? && form.title != "" && form.genre != ""
  }

  /** The store after a clean upload of `form` as program `pid` with request `aid`. */
  function Uploaded(s: Store, form: Upload.UploadForm, uploader: SessionUser, pid: Id, aid: Id, now: Instant): Store {
    Upload.HandleUpload(s, form, Some(uploader), Upload.Stored, map[], pid, aid, now).store
  }

  /** The upload leaves a pending program and its pending executive_producer request. */
  lemma {:induction false} UploadFilesFirstRequest(s: Store, form: Upload.UploadForm, uploader: SessionUser,
                                                   pid: Id, aid: Id, now: Instant)
    requires Ready(form) && pid !in s.programs && aid !in s.approvals
    ensures var u := Uploaded(s, form, uploader, pid, aid, now);
      && pid in u.programs && u.programs[pid].approvalStatus == Some(Pending)
      && aid in u.approvals && u.approvals[aid].contentId == pid
      && u.approvals[aid].approvalLevel == Some(ExecutiveProducer)
      && u.approvals[aid].status == Some(Pending)
      && u.approvals.Keys == s.approvals.Keys + {aid}
  {
    var r := Upload.HandleUpload(s, form, Some(uploader), Upload.Stored, map[], pid, aid, now);
    assert r.outcome.Uploaded?;
    assert r.outcome.approvalCreated;
  }

  /** Both reviewers approve: the program ends approved. */
  lemma {:induction false} TwoApprovalsApproveProgram(
    s: Store, form: Upload.UploadForm, uploader: SessionUser, producer: SessionUser, leader: SessionUser,
    pid: Id, aid: Id, cid: Id, unused: Id, now: Instant, faults1: Faults, faults2: Faults)
    requires Ready(form) && pid !in s.programs && aid !in s.approvals
    requires cid !in s.approvals && cid != aid
    requires TableCallsSucceed(faults1) && TableCallsSucceed(faults2)
    ensures
      var u := Uploaded(s, form, uploader, pid, aid, now);
      var h1 := Approve(u, Some(producer), aid, "", faults1, cid, now);
      var h2 := Approve(h1.store, Some(leader), cid, "", faults2, unused, now);
      && h1.store.programs[pid].approvalStatus == Some(Pending)
      && h2.store.programs[pid].approvalStatus == Some(Approved)
      && h2.store.approvals[aid].status == Some(Approved)
      && h2.store.approvals[cid].status == Some(Approved)
  {
    var u := Uploaded(s, form, uploader, pid, aid, now);
    UploadFilesFirstRequest(s, form, uploader, pid, aid, now);
    var h1 := Approve(u, Some(producer), aid, "", faults1, cid, now);
    ApproveExecutiveProducer(u, producer, aid, "", faults1, cid, now);
    assert h1.store.approvals[cid].contentId == pid;
    ApproveChurchLeadership(h1.store, leader, cid, "", faults2, unused, now);
  }

  /** The executive producer rejects: the program ends rejected and no
      church_leadership request is ever filed. */
  lemma {:induction false} FirstStageRejectionRejectsProgram(
    s: Store, form: Upload.UploadForm, uploader: SessionUser, producer: SessionUser,
    pid: Id, aid: Id, now: Instant, faults: Faults)
    requires Ready(form) && pid !in s.programs && aid !in s.approvals
    requires TableCallsSucceed(faults)
    ensures
      var u := Uploaded(s, form, uploader, pid, aid, now);
      var h := Reject(u, Some(producer), aid, "", faults, now);
      && h.store.programs[pid].approvalStatus == Some(Rejected)
      && h.store.approvals.Keys == s.approvals.Keys + {aid}
  {
    var u := Uploaded(s, form, uploader, pid, aid, now);
    UploadFilesFirstRequest(s, form, uploader, pid, aid, now);
    RejectAtAnyLevel(u, producer, aid, "", faults, now);
  }

  /** Church leadership rejects after the producer approved: the program ends
      rejected although the first request stays approved. */
  lemma {:induction false} SecondStageRejectionRejectsProgram(
    s: Store, form: Upload.UploadForm, uploader: SessionUser, producer: SessionUser, leader: SessionUser,
    pid: Id, aid: Id, cid: Id, now: Instant, faults1: Faults, faults2: Faults)
    requires Ready(form) && pid !in s.programs && aid !in s.approvals
    requires cid !in s.approvals && cid != aid
    requires TableCallsSucceed(faults1) && TableCallsSucceed(faults2)
    ensures
      var u := Uploaded(s, form, uploader, pid, aid, now);
      var h1 := Approve(u, Some(producer), aid, "", faults1, cid, now);
      var h2 := Reject(h1.store, Some(leader), cid, "", faults2, now);
      && h2.store.programs[pid].approvalStatus == Some(Rejected)
      && h2.store.approvals[aid].status == Some(Approved)
      && h2.store.approvals[cid].status == Some(Rejected)
  {
    var u := Uploaded(s, form, uploader, pid, aid, now);
    UploadFilesFirstRequest(s, form, uploader, pid, aid, now);
    var h1 := Approve(u, Some(producer), aid, "", faults1, cid, now);
    ApproveExecutiveProducer(u, producer, aid, "", faults1, cid, now);
    assert h1.store.approvals[cid].contentId == pid;
    RejectAtAnyLevel(h1.store, leader, cid, "", faults2, now);
  }
}

=== FILE: wrappers.dfy ===
/** Optional values: the `T | null` columns of the store and the `T | undefined`
    arguments of the handlers. */
module Wrappers {

  datatype Option<+T> = None | Some(value: T) {

    /** The value, or `default` when there is none. */
    function GetOr(default: T): T {
      match this
      case Some(v) => v
      case None => default
    }
  }
}
